=== FILE: README.md ===
# Directory sync and tunnel configuration, modelled in Dafny

This project models two pieces of the Ryvie rPictures server.

**LDAP-to-local-account sync.** Two controllers implement the same sync:
`UserAdminController.syncLdapUsersInternal` and `LdapSyncController.syncLdap`.
Each run does four things:

1. Gets the controller's LDAP client, creating it on first use.
2. Binds to the directory.
3. Enumerates the user entries with `getAllLdapUsers`.
4. Reconciles each resulting `LdapUser` against the local user repository.

Reconciliation ends each user in one of three counters:

- **skipped**: the user has no password.
- **updated**: an account with the user's email exists.
- **created**: a new account is made.

A user whose handling throws counts nowhere, and the loop goes on.

The model has one engine with two instances. `SyncParams` holds what the
two controllers differ in: the bcrypt work factor (`SALT_ROUNDS` against the
literal `10`) and where the UUID of a new account's storage label comes from.

**Tunnel configuration** (`RyvieService`). This part covers three things:

- reading `/etc/ryvie/config.json` into the tunnel-info response;
- the four-level priority choice of the public URL;
- merging new values into the configuration.

Modules, in dependency order:

| file | module | models |
|---|---|---|
| wrappers.dfy | `Wrappers` | `Option`, standing for a value that may be `undefined` |
| js.dfy | `Js` | JavaScript string truthiness, `a \|\| b`, `v \|\| undefined` |
| ldap_settings.dfy | `LdapSettings` | environment variables with their literal fallbacks |
| ldap_client.dfy | `LdapClient` | the lazily created client, the group-membership filter |
| membership.dfy | `Membership` | `isUserInGroup` as a replay of an event trace |
| extraction.dfy | `Extraction` | attribute flattening and the per-entry extraction |
| enumeration.dfy | `Enumeration` | `getAllLdapUsers`: stream cut, `Promise.all` join, settle order |
| reconciliation.dfy | `Reconciliation` | the per-user decision and the counted loop |
| sync_run.dfy | `SyncRun` | the whole run and the two controller instances |
| ryvie.dfy | `Ryvie` | `RyvieService` and the response record of `ryvie.dto.ts` |

Outside collaborators become plain values or function parameters:

- **Directory.** A `Directory` value holds whether the bind succeeds, the
  user search, and the answer to each membership filter.
- **Event streams.** A search result stream is a finite trace of entry,
  end and error events.
- **Settle order.** Users are pushed as their membership checks settle, so
  the order in which users are reconciled comes from a schedule. The
  schedule picks which pending check settles next, and any order can be
  produced. No property relies on directory order. Properties about a
  second run in another order need users sharing an email to agree on the
  admin flag; `Reconciliation.SettleOrderCanFlipAdminFlag` shows why.
- **Function parameters.** Each of these is a function of the user's
  position in the loop:
  - bcrypt (`hash`), which is salted, so two calls may differ;
  - the UUID source;
  - the id the repository gives a created account;
  - whether handling the user throws (`fault`), and at which call.
- **User repository.** It is a map from email to account, which is how
  `getByEmail` reads it.

## Model

| member | source | states |
|---|---|---|
| `LdapSettings.Resolve` | server/src/controllers/user-admin.controller.ts:125-202 | The variables are read at line 125 (URL), lines 135-136 (bind DN and password), lines 143 and 170 (base DN), line 172 (user filter) and lines 193-202 (attributes and admin group). For each of the nine variables (`LDAP_URL`, `LDAP_BIND_DN`, `LDAP_BIND_PASSWORD`, `LDAP_USER_BASE_DN`, `LDAP_USER_FILTER`, `LDAP_EMAIL_ATTRIBUTE`, `LDAP_NAME_ATTRIBUTE`, `LDAP_PASSWORD_ATTRIBUTE`, `LDAP_ADMIN_GROUP`), a set, non-empty value is used as given. An unset or empty one falls back to its literal default (`ldap://openldap:1389`, …, `mail`, `cn`, `userPassword`, `admins`), so every setting is non-empty. |
| `LdapClient.GetClient` | server/src/controllers/user-admin.controller.ts:122-129 | Creates a client exactly when the field is empty, using the current URL. Otherwise it returns the held client. Either way the field holds the returned client afterwards. |
| `LdapClient.ClientCreatedAtMostOnce` | server/src/controllers/ldap-sync.controller.ts:28-35 | However many times the client is requested, at most one client is created. It is created only if the field started empty. Every call returns that client, built from the URL current at the first call. |
| `LdapClient.GroupFilter` | server/src/controllers/user-admin.controller.ts:145 | The membership filter is the conjunction, in RFC 4515 section 3 syntax, of `(objectClass=groupOfNames)`, `(cn=G)` and `(member=DN)`. Values are inserted without escaping. |
| `LdapClient.GroupFilterInjective` | server/src/controllers/ldap-sync.controller.ts:51 | If the group name has no `)`, two equal filters come from the same group name and the same member DN. |
| `Membership.Replay` | server/src/controllers/user-admin.controller.ts:148-162 | Replaying a stream settles at the first terminal event. It resolves true iff that event is `end` and an entry was seen before it, false iff it is `error` or an `end` with no entry before it, and never settles if there is no terminal event. |
| `Membership.IsUserInGroup` | server/src/controllers/ldap-sync.controller.ts:46-69 | Membership is true iff at least one entry comes before a first terminal event that is `end`. It is false when that event is `error`, or an `end` with no entry before it. It is pending with no terminal event, and rejected only when the search call itself fails. |
| `Membership.ErrorBeforeEndMeansNotMember` | server/src/controllers/user-admin.controller.ts:159-161 | An `error` event with no `end` before it makes the check answer false, however many entries came first. |
| `Extraction.Flatten` | server/src/controllers/user-admin.controller.ts:188-191 | The `reduce` over the attribute list gives at most one key per attribute, because a repeated type overwrites its entry. A non-empty list gives at least one key. |
| `Extraction.FlattenKeys` | server/src/controllers/user-admin.controller.ts:188-191 | The flattened attribute map has a key exactly for each attribute type in the list. |
| `Extraction.FlattenLastWriterWins` | server/src/controllers/user-admin.controller.ts:188-191 | Each type maps to the values of the last attribute of that type. Duplicate types overwrite rather than fail. |
| `Extraction.FlattenLoop` | server/src/controllers/ldap-sync.controller.ts:94-97 | The `for` loop of the second controller builds the same map as the `reduce` of the first. |
| `Extraction.Extract` | server/src/controllers/user-admin.controller.ts:183-211 | An entry yields a user iff it has a non-empty DN, an attribute list, and email and name attributes. `mail` is the first email value and `cn` is all name values. The password is the first password value if that attribute exists, and absent otherwise. |
| `Enumeration.CutAtTerminal` | server/src/controllers/ldap-sync.controller.ts:85-136 | The entries seen are exactly those before the first `end` or `error`, and that event is the one reported. No terminal event means the whole trace was entries. |
| `Enumeration.Candidates` | server/src/controllers/ldap-sync.controller.ts:85-119 | No more candidates than entries. Every valid entry's candidate is kept, and every candidate comes from some valid entry. |
| `Enumeration.CandidatesCountEntries` | server/src/controllers/ldap-sync.controller.ts:89-118 | Each candidate occurs exactly as often as there are entries that extract to it: every valid entry contributes one candidate, and an invalid entry none. |
| `Enumeration.PromiseAll` | server/src/controllers/user-admin.controller.ts:221-229 | `Promise.all` rejects iff some promise rejected. It stays pending iff none rejected and one is pending. Otherwise it fulfils with the values, one per promise and in promise order. |
| `Enumeration.JoinAll` | server/src/controllers/user-admin.controller.ts:202-229 | The join rejects iff some candidate's membership check rejected, and is pending iff none rejected and one is pending. Otherwise it yields one user per candidate, carrying the candidate's fields and the answer of that candidate's own check. |
| `Enumeration.MembershipFailureIsSomeCandidate` | server/src/controllers/user-admin.controller.ts:222-228 | The join rejects exactly when the membership check of some candidate rejects. |
| `Enumeration.JoinSettlesWithCandidates` | server/src/controllers/user-admin.controller.ts:202-229 | The join resolves exactly when every candidate's check resolved, and then with each candidate's user, in candidate order. It stays pending exactly when no check rejected and one is pending. |
| `Enumeration.JoinedUsersDescribeEntries` | server/src/controllers/user-admin.controller.ts:203-224 | Whatever order the checks settle in, the pushed users are as many as the candidates. Each comes from an extractable entry and its check, and every extractable entry yields one of them. |
| `Enumeration.SettleOrder` | server/src/controllers/user-admin.controller.ts:203-213 | Any settle order is a permutation of the settled users: none is lost or duplicated. |
| `Enumeration.EveryOrderIsReachable` | server/src/controllers/user-admin.controller.ts:203-213 | Every permutation of the pending users is the order of some settle schedule. The model's settle schedules therefore leave out no completion order the program can produce. |
| `Enumeration.GetAllLdapUsers` | server/src/controllers/user-admin.controller.ts:165-232 | A failed search call, or an `error` before `end`, rejects. It resolves exactly when `end` arrives and every membership check resolved, with each candidate's user exactly once (as multisets), in the order the schedule settles the checks. It is pending exactly when no terminal event came, or `end` came and a check is pending with none rejected. A rejected membership call rejects once `end` arrives. The users are exactly those the valid entries before `end` describe. |
| `Enumeration.EveryUserOrderIsEnumerated` | server/src/controllers/user-admin.controller.ts:203-229 | When the enumeration resolves, every reordering of its users is what it resolves with under some settle schedule. |
| `Reconciliation.ApplyPatch` | server/src/controllers/user-admin.controller.ts:268-279 | An update replaces only the staged admin flag and password. Id, email, name and storage label are kept. |
| `Reconciliation.ProcessUser` | server/src/controllers/user-admin.controller.ts:257-298 | No or empty password: skipped, with no call and no store change. Otherwise the password is hashed first with the work factor. A throw leaves the store alone and counts as a failure. A throw in hashing ends the calls with the hash, and a throw in the lookup ends them with the lookup. An existing email gets exactly one update (made even if it then throws), counted updated and never skipped. It carries the fresh hash, and carries `isAdmin` iff the stored flag differs, and then with the directory's flag. A new email gets exactly one create (made even if it then throws) with the user's flag, email, first name, the hash, the storage label `user-` followed by the controller's UUID for that user, and `shouldChangePassword = false`. |
| `Reconciliation.StepShape` | server/src/controllers/ldap-sync.controller.ts:163-204 | Skipping or failing changes nothing. An update keeps the key set and the account's id, email, name and label. A create adds exactly the user's email. No other account changes. |
| `Reconciliation.StepHashes` | server/src/controllers/ldap-sync.controller.ts:169 | Any hash call made for a user uses the controller's work factor. |
| `Reconciliation.Reconcile` | server/src/controllers/user-admin.controller.ts:253-303 | There is one decision per user. `created + updated + skipped` plus the failed users equals the number of users. |
| `Reconciliation.CountersCountDecisions` | server/src/controllers/user-admin.controller.ts:253-302 | `created`, `updated` and `skipped` each equal the number of users with that decision. A user whose handling threw is counted in none of them, only as failed. |
| `Reconciliation.DecisionsFollowUsers` | server/src/controllers/user-admin.controller.ts:253-261 | A user is skipped iff it has no (or an empty) password. It fails iff it has one and its handling throws. |
| `Reconciliation.SkippedCountsUsersWithoutPassword` | server/src/controllers/ldap-sync.controller.ts:163-167 | `skipped` equals the number of users without a password, whatever the store and the failures. |
| `Reconciliation.CountersAddUp` | server/src/controllers/ldap-sync.controller.ts:159-209 | `created + updated + skipped` is at most the number of users. It equals that number when no user's handling throws. |
| `Reconciliation.StoreOnlyGrows` | server/src/controllers/user-admin.controller.ts:266-298 | The store only gains accounts. An existing account keeps its id, email, name and storage label. |
| `Reconciliation.NewAccountsWereCreated` | server/src/controllers/user-admin.controller.ts:289-298 | An account present after the loop but not before was created for some user with that email. |
| `Reconciliation.HandledUserHasAccount` | server/src/controllers/user-admin.controller.ts:265-298 | A user decided as created or updated has an account under its email after the loop. |
| `Reconciliation.AccountsMatchDecisions` | server/src/controllers/user-admin.controller.ts:265-298 | Every new account was created for a user with that email. Every created or updated user has an account afterwards. |
| `Reconciliation.KeyedByEmailPreserved` | server/src/controllers/user-admin.controller.ts:290-297 | Accounts stay filed under their own email. |
| `Reconciliation.FinalAdminFlag` | server/src/controllers/user-admin.controller.ts:270-291 | Without failures, each account ends with the admin flag of the last user with a password and that email. If there is no such user, it keeps its flag. |
| `Reconciliation.FinalPasswordHash` | server/src/controllers/user-admin.controller.ts:263-297 | Without failures, each account ends with the hash of the last user with a password and that email, as the hash service returned it for that user. If there is no such user, it keeps its hash. |
| `Reconciliation.NoCreatesWhenPresent` | server/src/controllers/user-admin.controller.ts:265-287 | When every user with a password already has an account, nothing is created and no account is added. |
| `Reconciliation.SecondRunCreatesNothing` | server/src/controllers/user-admin.controller.ts:265-298 | After a run with no failures, running again over the same users in any order creates nothing. |
| `Reconciliation.SecondRunKeepsAdminFlags` | server/src/controllers/user-admin.controller.ts:266-287 | With no failures in either run, a second run over the same users in the same order updates every user with a password again and changes no admin flag. Each account a user with a password names ends with the second run's hash for the last such user. |
| `Reconciliation.LastAdminFlagFindsUser` | server/src/controllers/user-admin.controller.ts:270-291 | The flag an email ends with is named exactly when some user with a password has that email, and it is the flag of such a user. |
| `Reconciliation.LastAdminFlagIgnoresOrder` | server/src/controllers/user-admin.controller.ts:270-291 | When users with a password that share an email agree on the admin flag, every reordering of the users gives each email the same final flag. |
| `Reconciliation.SecondRunInAnyOrderKeepsAdminFlags` | server/src/controllers/user-admin.controller.ts:266-287 | With no failures in either run, and users with a password that share an email agreeing on the flag, a second run over the same users in any order updates every user with a password again and changes no admin flag. Each account a user with a password names ends with the second run's hash for the last such user in the new order. |
| `Reconciliation.SettleOrderCanFlipAdminFlag` | server/src/controllers/user-admin.controller.ts:270-277 | Two users with a password share an email but not the admin flag. Reconciling them in the other order on the second run flips the account's flag. |
| `Reconciliation.StepAgrees` | server/src/controllers/ldap-sync.controller.ts:169-204 | For stores with the same emails and flags, handling a user makes the same decision under either controller's work factor and UUID source. |
| `Reconciliation.ControllersAgree` | server/src/controllers/ldap-sync.controller.ts:159-209 | Both controllers reach the same decisions, counters and emails. Their accounts agree on id, email, name, admin flag and `shouldChangePassword`, so they differ only in the hashes and labels they write. |
| `Reconciliation.NoPasswordCountConcat` | server/src/controllers/user-admin.controller.ts:257-261 | The number of users without a password adds up over concatenation. |
| `Reconciliation.SkippedIgnoresOrder` | server/src/controllers/user-admin.controller.ts:206 | The number of users without a password is the same for every order of the same users. |
| `Reconciliation.HashCallsUseWorkFactor` | server/src/controllers/user-admin.controller.ts:263 | Every hash call of a run uses the controller's work factor. |
| `Reconciliation.StepCallCounts` | server/src/controllers/user-admin.controller.ts:257-297 | Handling one user makes one hash call iff it has a password. It makes one lookup unless hashing threw, and one write (`update` or `create`) unless hashing or the lookup threw. |
| `Reconciliation.RunHashCount` | server/src/controllers/user-admin.controller.ts:253-263 | A run hashes each user with a password exactly once, whatever throws. |
| `Reconciliation.RunCallCounts` | server/src/controllers/user-admin.controller.ts:253-303 | A run makes a repository write for every created or updated user. When nothing throws it makes exactly one write per such user and no other, and every user with a password is hashed once. |
| `SyncRun.SyncLdapUsers` | server/src/controllers/user-admin.controller.ts:240-312 | A bind failure is rethrown with no counters, and so are a failed user search, a stream error and a rejected membership call. The client is created on the first run and reused after. The run completes exactly when the bind succeeds, the stream ends and every membership check resolves. It then returns the counters, store and calls of the loop over the enumerated users. Counters count at most once per valid entry, and exactly once with no per-user failures. Every hash uses the controller's work factor. |
| `SyncRun.UserAdminParams` | server/src/controllers/user-admin.controller.ts:263 | The user-admin controller hashes with `SALT_ROUNDS`. |
| `SyncRun.LdapSyncParams` | server/src/controllers/ldap-sync.controller.ts:169 | The LDAP-sync controller hashes with cost 10. |
| `SyncRun.EnumeratedUsersArePermutations` | server/src/controllers/ldap-sync.controller.ts:109-118 | Whatever the settle order, the enumeration succeeds for all orders or for none, and always yields the same multiset of users. |
| `SyncRun.SkippedIndependentOfSettleOrder` | server/src/controllers/ldap-sync.controller.ts:159-167 | A completed run skips the same number of users for every settle order, store and set of failures. |
| `SyncRun.RerunCreatesNothing` | server/src/controllers/ldap-sync.controller.ts:146-218 | A second run on the same controller and unchanged directory data, after a run with no per-user failures, reuses the client, completes, creates nothing and adds no account. |
| `SyncRun.ControllersReachSameOutcome` | server/src/controllers/ldap-sync.controller.ts:146-218 | On the same inputs, both controllers settle the same way. They return the same counters and the same emails, with accounts that differ only in hash and storage label. |
| `Ryvie.BuildPublicUrl` | server/src/services/ryvie.service.ts:51-73 | Returns the first truthy option: `publicUrl`, then `https://` + app domain, then `http://` + tunnel host + `:3000`, then `http://` + NetBird IP + `:3000`. It is undefined iff none applies, and a returned URL is never empty. |
| `Ryvie.EmptyStringsCountAsAbsent` | server/src/services/ryvie.service.ts:53-70 | An empty string at any of the four levels falls through exactly like a missing value. |
| `Ryvie.GetTunnelInfo` | server/src/services/ryvie.service.ts:15-46 | A missing, unreadable or `null` configuration gives exactly `{success:false}`. Otherwise `success` is true and `domains` is always present. Falsy fields are undefined, and the tunnel host falls back to the NetBird IP. `publicUrl` is the priority choice. |
| `Ryvie.TunnelHostImpliesPublicUrl` | server/src/services/ryvie.service.ts:28-38 | A response that names a tunnel host also names a public URL. Every defined field is non-empty. |
| `Ryvie.WithSetupKey` | server/src/services/ryvie.service.ts:114-117 | The setup key goes into `netbird`, creating it if missing and keeping its IP and other keys. |
| `Ryvie.Merge` | server/src/services/ryvie.service.ts:109-117 | `ryvieId`, `tunnelHost`, `publicUrl` and `domains` are overwritten iff their argument is defined, the empty string included. `domains` is replaced whole and the setup key goes into `netbird`. A missing `netbird` is created holding only the setup key. All other keys keep their values. |
| `Ryvie.MergeIdempotent` | server/src/services/ryvie.service.ts:110-117 | Applying the same update twice is the same as applying it once. |
| `Ryvie.EmptyUpdateChangesNothing` | server/src/services/ryvie.service.ts:110-117 | With every argument undefined, the configuration is unchanged. |
| `Ryvie.SaveTunnelInfo` | server/src/services/ryvie.service.ts:87-126 | Saving succeeds iff the I/O succeeds, the file is readable, and no key is assigned into a `null` configuration. A missing file starts from `{}`. |
| `Ryvie.SavedValuesAreReported` | server/src/services/ryvie.service.ts:110-112 | After a successful save to a missing or object configuration, a saved non-empty public URL, id, setup key or tunnel host is what the tunnel info reports. |
| `Ryvie.MergedPublicUrlWins` | server/src/services/ryvie.service.ts:53-55 | After merging a non-empty `publicUrl` p, `buildPublicUrl` returns p. |

Behaviour of the code worth knowing, which the model keeps:

- **Membership failures.** Among failures, only an `error` event on a
  membership search stream makes a user "not an admin". An `end` with no
  entry before it also answers "not an admin", but it is not a failure.
  If the membership `search` call
  itself fails, its promise rejects and `Promise.all` rejects. The whole
  enumeration and run then fail (`MembershipCallFailed`).
- **Empty passwords.** A user whose password attribute is missing or empty
  is skipped.
- **Update calls.** A user with a password whose email has an account gets
  exactly one `update` call, as long as hashing, the lookup and the write do
  not throw. That call always carries the new hash. A user without a
  password makes no call. Two users sharing an email make two calls, and an
  account that no directory user names gets none.
- **Shared emails.** When directory users with a password share an email,
  the last one reconciled sets the account's admin flag. The order is the
  order in which the membership checks settled, so if their flags differ,
  the final flag depends on that order.
- **Storage labels.** A created account's label is `user-` followed by the
  UUID.

## Left out

- The CRUD endpoints of `UserAdminController` (lines 45-120) are left out:
  they only delegate to `UserAdminService`, which is not part of this model.
- ldapjs networking is not modelled: the connection, `createClient`,
  `promisify` and the bind round trip. The bind is a success flag, and
  each search is a finite event trace.
- The bind DN and password, the search base and scope, and the user filter
  are resolved but not interpreted: the directory's answers are given.
- Events after the first terminal event of a stream are not modelled.
  ldapjs emits none.
- An attribute with an empty value list is not modelled. A directory
  returns at least one value per attribute when it is not asked for types
  only, and the search here does not ask for that.
- Attribute and setting names that collide with properties every
  JavaScript object inherits (such as `constructor`) are not modelled.
- bcrypt, `randomUUID` and the repository's id generation are opaque
  function parameters. Nothing is assumed about their results.
- `src/constants` is not part of this model, so the value of `SALT_ROUNDS`
  is a parameter.
- Only exact email equality is modelled for `getByEmail`. Deleted or hidden
  accounts and case folding are not.
- A repository write that throws is assumed to leave the store unchanged.
- Logging is left out.
- Concurrency is reduced to a settle schedule for the membership checks.
  Node's handling of a membership rejection that happens before `end` (an
  unhandled rejection at that moment) is not modelled. Neither are two
  sync runs racing each other.
- `fs`, `JSON.parse`, `JSON.stringify` and `mkdirSync` are abstracted:
  - the file is a `ConfigFile`;
  - a read or parse error is `Unreadable`;
  - a failing directory creation or write is `ioSucceeds = false`.
- Configuration fields holding non-string JSON values, and a top-level JSON
  value that is neither an object nor `null`, are not modelled.
- `ryvie.dto.ts` is mirrored as the `TunnelInfo` datatype. The Swagger and
  Nest decorators and the `HistoryBuilder` metadata are left out.

=== FILE: enumeration.dfy ===
/**
  `getAllLdapUsers`: one subtree search for user entries, whose result
  stream is an explicit trace. Each valid entry starts a membership check;
  an error event rejects at once, and the end event waits for all checks
  (`Promise.all`) before resolving. Users are pushed as their checks settle,
  so the resolved list is in settle order, which a schedule chooses.
 */
module Enumeration {
  import opened Wrappers
  import opened LdapSettings
  import opened LdapClient
  import opened Membership
  import opened Extraction

  /** One event of the user search stream. */
  datatype EnumEvent = UserEntry(entry: RawEntry) | UsersEnd | UsersError

  /** The promisified user `search` call fails, or yields a stream. */
  datatype UserSearch = UserSearchRejected | UserStream(events: seq<EnumEvent>)

  /** Why the enumeration promise rejected. */
  datatype EnumError =
    | SearchCallFailed      // the promisified search call threw
    | SearchStreamFailed    // the stream emitted `error` before `end`
    | MembershipCallFailed  // a membership search call threw, so `Promise.all` rejected

  /** How the enumeration promise settles. */
  datatype Enumeration = Enumerated(users: seq<LdapUser>) | EnumerationFailed(error: EnumError) | EnumerationPending

  datatype Terminal = EndSeen | ErrorSeen | NoTerminal

  /** The entries delivered before the first terminal event, and that event. */
  datatype Cut = Cut(entries: seq<RawEntry>, terminal: Terminal)

  /** Splits a stream at its first terminal event; later events are not
      observed, since the promise has settled (or its join has begun). */
  function CutAtTerminal(events: seq<EnumEvent>): (c: Cut)
    ensures |c.entries| <= |events|
    ensures forall i :: 0 <= i < |c.entries| ==> events[i] == UserEntry(c.entries[i])
    ensures c.terminal == NoTerminal <==> |c.entries| == |events|
    ensures c.terminal == EndSeen <==> |c.entries| < |events| && events[|c.entries|] == UsersEnd
    ensures c.terminal == ErrorSeen <==> |c.entries| < |events| && events[|c.entries|] == UsersError
  {
    if |events| == 0 then Cut([], NoTerminal)
    else
      match events[0]
      case UsersEnd => Cut([], EndSeen)
      case UsersError => Cut([], ErrorSeen)
      case UserEntry(e) =>
        var rest := CutAtTerminal(events[1..]);
        Cut([e] + rest.entries, rest.terminal)
  }

  /** The candidates of the entries that survive extraction, in stream order. */
  function Candidates(s: Settings, entries: seq<RawEntry>): (cs: seq<Candidate>)
    ensures |cs| <= |entries|
    ensures forall c :: c in cs ==> exists e :: e in entries && Extract(s, e) == Some(c)
    ensures forall e :: e in entries && Extract(s, e).Some? ==> Extract(s, e).value in cs
  {
    if |entries| == 0 then []
    else
      var rest := Candidates(s, entries[1..]);
      assert forall e :: e in entries[1..] ==> e in entries;
      match Extract(s, entries[0])
      case None => rest
      case Some(c) => [c] + rest
  }

  /** How many of the entries extract to the candidate `c`. */
  function ExtractionCount(s: Settings, entries: seq<RawEntry>, c: Candidate): nat {
    if |entries| == 0 then 0
    else (if Extract(s, entries[0]) == Some(c) then 1 else 0) + ExtractionCount(s, entries[1..], c)
  }

  /** Each candidate occurs as often as there are entries that extract to it:
      every valid entry contributes exactly one candidate. */
  lemma {:induction false} CandidatesCountEntries(s: Settings, entries: seq<RawEntry>, c: Candidate)
    decreases |entries|
    ensures multiset(Candidates(s, entries))[c] == ExtractionCount(s, entries, c)
  {
    if |entries| > 0 {
      CandidatesCountEntries(s, entries[1..], c);
      var rest := Candidates(s, entries[1..]);
      match Extract(s, entries[0])
      case None =>
      case Some(c0) =>
        assert multiset([c0] + rest) == multiset{c0} + multiset(rest);
    }
  }

  /** The membership check started for a candidate: `isUserInGroup(dn, adminGroup)`. */
  function MembershipOf(s: Settings, answers: string -> MembershipQuery, c: Candidate): Settlement<bool> {
    IsUserInGroup(answers(GroupFilter(s.adminGroup, c.dn)))
  }

  /** `Promise.all`: rejects as soon as one promise rejects, stays pending
      while none rejected and one is pending, and otherwise fulfils with the
      values in the order of the promises. */
  function PromiseAll<T>(ps: seq<Settlement<T>>): (r: Settlement<seq<T>>)
    ensures r.Rejected? <==> exists i :: 0 <= i < |ps| && ps[i].Rejected?
    ensures r.Pending? <==>
      && (forall i :: 0 <= i < |ps| ==> !ps[i].Rejected?)
      && (exists i :: 0 <= i < |ps| && ps[i].Pending?)
    ensures r.Fulfilled? ==> |r.value| == |ps| && forall i :: 0 <= i < |ps| ==> ps[i] == Fulfilled(r.value[i])
  {
    if |ps| == 0 then Fulfilled([])
    else
      var tail := PromiseAll(ps[1..]);
      assert forall i :: 1 <= i < |ps| ==> ps[1..][i - 1] == ps[i];
      if ps[0].Rejected? || tail.Rejected? then Rejected
      else if ps[0].Pending? || tail.Pending? then Pending
      else Fulfilled([ps[0].value] + tail.value)
  }

  /** The membership checks `getAllLdapUsers` starts, one per candidate. */
  function Checks(s: Settings, answers: string -> MembershipQuery, cs: seq<Candidate>): (ps: seq<Settlement<bool>>)
    ensures |ps| == |cs|
    ensures forall i :: 0 <= i < |cs| ==> ps[i] == MembershipOf(s, answers, cs[i])
  {
    seq(|cs|, i requires 0 <= i < |cs| => MembershipOf(s, answers, cs[i]))
  }

  /** The join of `getAllLdapUsers`: `Promise.all` over the membership
      checks, each user carrying the candidate's fields and the answer of its
      own check. */
  function JoinAll(cs: seq<Candidate>, checks: seq<Settlement<bool>>): (r: Settlement<seq<LdapUser>>)
    requires |checks| == |cs|
    ensures r.Rejected? <==> exists i :: 0 <= i < |cs| && checks[i].Rejected?
    ensures r.Pending? <==>
      && (forall i :: 0 <= i < |cs| ==> !checks[i].Rejected?)
      && (exists i :: 0 <= i < |cs| && checks[i].Pending?)
    ensures r.Fulfilled? ==> |r.value| == |cs|
    ensures r.Fulfilled? ==> forall i :: 0 <= i < |cs| ==>
      checks[i] == Fulfilled(r.value[i].isAdmin) && r.value[i] == ToUser(cs[i], r.value[i].isAdmin)
  {
    match PromiseAll(checks)
    case Rejected => Rejected
    case Pending => Pending
    case Fulfilled(flags) => Fulfilled(seq(|cs|, i requires 0 <= i < |cs| => ToUser(cs[i], flags[i])))
  }

  /** The order in which settled checks push their users: at each step the
      schedule picks (modulo the number left) which pending check settles
      next; once it runs out, the earliest one does. Every order of the
      checks can be produced this way, and no user is lost or duplicated. */
  function SettleOrder<T>(pending: seq<T>, schedule: seq<nat>): (r: seq<T>)
    decreases |pending|
    ensures multiset(r) == multiset(pending)
  {
    if |pending| == 0 then []
    else
      var j := if |schedule| > 0 then schedule[0] % |pending| else 0;
      var rest := if |schedule| > 0 then schedule[1..] else [];
      var others := pending[..j] + pending[j + 1..];
      assert pending == pending[..j] + [pending[j]] + pending[j + 1..];
      [pending[j]] + SettleOrder(others, rest)
  }

  /** Taking one element out of a sequence takes it out of its multiset. */
  lemma RemoveAt<T>(xs: seq<T>, j: int)
    requires 0 <= j < |xs|
    ensures multiset(xs[..j] + xs[j + 1..]) == multiset(xs) - multiset{xs[j]}
  {
    assert xs == xs[..j] + [xs[j]] + xs[j + 1..];
    assert multiset(xs) == multiset(xs[..j]) + multiset{xs[j]} + multiset(xs[j + 1..]);
  }

  /** Scheduling index `j` first settles `pending[j]` first. */
  lemma SettleFirst<T>(pending: seq<T>, j: nat, rest: seq<nat>)
    requires j < |pending|
    ensures SettleOrder(pending, [j] + rest) == [pending[j]] + SettleOrder(pending[..j] + pending[j + 1..], rest)
  {
    SmallRemainder(j, |pending|);
    assert ([j] + rest)[0] == j && ([j] + rest)[1..] == rest;
  }

  lemma SmallRemainder(j: int, n: int)
    requires 0 <= j < n
    ensures j % n == j
  {
  }

  /** Settling the target's first element first leaves the rest of the
      target to be ordered from the remaining checks. */
  lemma FirstOfTarget<T>(pending: seq<T>, target: seq<T>) returns (j: nat)
    requires multiset(target) == multiset(pending)
    requires |target| > 0
    ensures j < |pending| && pending[j] == target[0]
    ensures multiset(target[1..]) == multiset(pending[..j] + pending[j + 1..])
  {
    assert target[0] in multiset(pending);
    j :| 0 <= j < |pending| && pending[j] == target[0];
    RemoveAt(pending, j);
    assert target == [target[0]] + target[1..];
    assert multiset(target) == multiset{target[0]} + multiset(target[1..]);
  }

  /** Every order of the pending checks is one the schedule can produce. */
  lemma {:induction false} EveryOrderIsReachable<T>(pending: seq<T>, target: seq<T>)
    requires multiset(target) == multiset(pending)
    decreases |pending|
    ensures exists schedule :: SettleOrder(pending, schedule) == target
  {
    if |target| == 0 {
      assert |pending| == |multiset(pending)| == |multiset(target)| == 0;
      assert SettleOrder(pending, []) == target;
    } else {
      var j := FirstOfTarget(pending, target);
      var others := pending[..j] + pending[j + 1..];
      EveryOrderIsReachable(others, target[1..]);
      var rest :| SettleOrder(others, rest) == target[1..];
      SettleFirst(pending, j, rest);
      assert SettleOrder(pending, [j] + rest) == [target[0]] + target[1..] == target;
    }
  }

  /** `u` is the user an entry yields once its membership check fulfilled. */
  ghost predicate Describes(s: Settings, answers: string -> MembershipQuery, e: RawEntry, u: LdapUser) {
    && Extract(s, e).Some?
    && MembershipOf(s, answers, Extract(s, e).value) == Fulfilled(u.isAdmin)
    && u == ToUser(Extract(s, e).value, u.isAdmin)
  }

  /** Every candidate's membership check resolved. */
  predicate AllFulfilled(s: Settings, answers: string -> MembershipQuery, cs: seq<Candidate>) {
    forall c :: c in cs ==> MembershipOf(s, answers, c).Fulfilled?
  }

  /** The users the candidates stand for once their checks resolved, in
      candidate order. */
  function UsersOf(s: Settings, answers: string -> MembershipQuery, cs: seq<Candidate>): seq<LdapUser>
    requires AllFulfilled(s, answers, cs)
  {
    seq(|cs|, i requires 0 <= i < |cs| => ToUser(cs[i], MembershipOf(s, answers, cs[i]).value))
  }

  /** `getAllLdapUsers`, given the directory's answer to the user search, its
      answer to each membership filter, and the settle schedule. */
  function GetAllLdapUsers(s: Settings, search: UserSearch, answers: string -> MembershipQuery, schedule: seq<nat>): (r: Enumeration)
    ensures search.UserSearchRejected? <==> r == EnumerationFailed(SearchCallFailed)
    ensures search.UserStream? && CutAtTerminal(search.events).terminal == ErrorSeen ==>
      r == EnumerationFailed(SearchStreamFailed)
    ensures search.UserStream? && CutAtTerminal(search.events).terminal == NoTerminal ==>
      r == EnumerationPending
    ensures r == EnumerationFailed(MembershipCallFailed) <==>
      && search.UserStream? && CutAtTerminal(search.events).terminal == EndSeen
      && exists c :: c in Candidates(s, CutAtTerminal(search.events).entries) && MembershipOf(s, answers, c).Rejected?
    ensures r.Enumerated? <==>
      && search.UserStream? && CutAtTerminal(search.events).terminal == EndSeen
      && AllFulfilled(s, answers, Candidates(s, CutAtTerminal(search.events).entries))
    ensures r == EnumerationPending <==>
      && search.UserStream?
      && (|| CutAtTerminal(search.events).terminal == NoTerminal
          || (&& CutAtTerminal(search.events).terminal == EndSeen
              && (forall c :: c in Candidates(s, CutAtTerminal(search.events).entries) ==> !MembershipOf(s, answers, c).Rejected?)
              && (exists c :: c in Candidates(s, CutAtTerminal(search.events).entries) && MembershipOf(s, answers, c).Pending?)))
    // the resolved list holds each candidate's user exactly once, in the
    // order the schedule settles their checks
    ensures r.Enumerated? ==>
      r.users == SettleOrder(UsersOf(s, answers, Candidates(s, CutAtTerminal(search.events).entries)), schedule)
    ensures r.Enumerated? ==>
      multiset(r.users) == multiset(UsersOf(s, answers, Candidates(s, CutAtTerminal(search.events).entries)))
    ensures r.Enumerated? ==>
      var entries := CutAtTerminal(search.events).entries;
      && |r.users| == |Candidates(s, entries)| <= |entries|
      && (forall u :: u in r.users ==> exists e :: e in entries && Describes(s, answers, e, u))
      && (forall e :: e in entries && Extract(s, e).Some? ==> exists u :: u in r.users && Describes(s, answers, e, u))
  {
    match search
    case UserSearchRejected => EnumerationFailed(SearchCallFailed)
    case UserStream(events) =>
      var cut := CutAtTerminal(events);
      match cut.terminal
      case NoTerminal => EnumerationPending
      case ErrorSeen => EnumerationFailed(SearchStreamFailed)
      case EndSeen =>
        var cs := Candidates(s, cut.entries);
        var joined := JoinAll(cs, Checks(s, answers, cs));
        MembershipFailureIsSomeCandidate(s, answers, cs);
        JoinSettlesWithCandidates(s, answers, cs);
        match joined
        case Rejected => EnumerationFailed(MembershipCallFailed)
        case Pending => EnumerationPending
        case Fulfilled(users) =>
          var ordered := SettleOrder(users, schedule);
          JoinedUsersDescribeEntries(s, answers, cut.entries, users, ordered);
          Enumerated(ordered)
  }

  /** Every order of the enumerated users is the result of some settle
      schedule: the enumeration fixes which users come back, never their order. */
  lemma EveryUserOrderIsEnumerated(s: Settings, search: UserSearch, answers: string -> MembershipQuery,
                                   schedule: seq<nat>, target: seq<LdapUser>)
    requires GetAllLdapUsers(s, search, answers, schedule).Enumerated?
    requires multiset(target) == multiset(GetAllLdapUsers(s, search, answers, schedule).users)
    ensures exists other :: GetAllLdapUsers(s, search, answers, other) == Enumerated(target)
  {
    var users := UsersOf(s, answers, Candidates(s, CutAtTerminal(search.events).entries));
    EveryOrderIsReachable(users, target);
    var other :| SettleOrder(users, other) == target;
    assert GetAllLdapUsers(s, search, answers, other).Enumerated?;
  }

  /** The join rejects exactly when the check of some candidate rejects. */
  lemma MembershipFailureIsSomeCandidate(s: Settings, answers: string -> MembershipQuery, cs: seq<Candidate>)
    ensures JoinAll(cs, Checks(s, answers, cs)).Rejected? <==>
            exists c :: c in cs && MembershipOf(s, answers, c).Rejected?
  {
    if exists c :: c in cs && MembershipOf(s, answers, c).Rejected? {
      var c :| c in cs && MembershipOf(s, answers, c).Rejected?;
      var i :| 0 <= i < |cs| && cs[i] == c;
      assert Checks(s, answers, cs)[i].Rejected?;
    }
  }

  /** The join resolves exactly when every candidate's check resolved, and
      then with the candidates' users in candidate order; it stays pending
      exactly when no check rejected and one is pending. */
  lemma JoinSettlesWithCandidates(s: Settings, answers: string -> MembershipQuery, cs: seq<Candidate>)
    ensures JoinAll(cs, Checks(s, answers, cs)).Fulfilled? <==> AllFulfilled(s, answers, cs)
    ensures JoinAll(cs, Checks(s, answers, cs)).Fulfilled? ==> JoinAll(cs, Checks(s, answers, cs)).value == UsersOf(s, answers, cs)
    ensures JoinAll(cs, Checks(s, answers, cs)).Pending? <==>
      && (forall c :: c in cs ==> !MembershipOf(s, answers, c).Rejected?)
      && (exists c :: c in cs && MembershipOf(s, answers, c).Pending?)
  {
    var checks := Checks(s, answers, cs);
    var joined := JoinAll(cs, checks);
    assert forall c :: c in cs ==> exists i :: 0 <= i < |cs| && cs[i] == c;
    if joined.Fulfilled? {
      assert forall i :: 0 <= i < |cs| ==> checks[i].Fulfilled?;
      assert joined.value == UsersOf(s, answers, cs);
    }
    if AllFulfilled(s, answers, cs) {
      assert forall i :: 0 <= i < |cs| ==> cs[i] in cs && checks[i].Fulfilled?;
    }
  }

  /** The `i`-th joined user is the one the candidate's entry describes. */
  lemma JoinedUserAt(s: Settings, answers: string -> MembershipQuery, entries: seq<RawEntry>,
                     users: seq<LdapUser>, i: int)
    requires JoinAll(Candidates(s, entries), Checks(s, answers, Candidates(s, entries))) == Fulfilled(users)
    requires 0 <= i < |Candidates(s, entries)|
    ensures |users| == |Candidates(s, entries)|
    ensures forall e :: e in entries && Extract(s, e) == Some(Candidates(s, entries)[i]) ==> Describes(s, answers, e, users[i])
  {
    var cs := Candidates(s, entries);
    var checks := Checks(s, answers, cs);
    assert checks[i] == MembershipOf(s, answers, cs[i]);
    assert checks[i] == Fulfilled(users[i].isAdmin) && users[i] == ToUser(cs[i], users[i].isAdmin);
  }

  /** Each joined user, wherever it settles, is described by some entry. */
  lemma UsersComeFromEntries(s: Settings, answers: string -> MembershipQuery, entries: seq<RawEntry>,
                             users: seq<LdapUser>, ordered: seq<LdapUser>, u: LdapUser)
    requires JoinAll(Candidates(s, entries), Checks(s, answers, Candidates(s, entries))) == Fulfilled(users)
    requires multiset(ordered) == multiset(users)
    requires u in ordered
    ensures exists e :: e in entries && Describes(s, answers, e, u)
  {
    var cs := Candidates(s, entries);
    assert u in multiset(users);
    var i :| 0 <= i < |users| && users[i] == u;
    JoinedUserAt(s, answers, entries, users, i);
    assert cs[i] in cs;
    var e :| e in entries && Extract(s, e) == Some(cs[i]);
    assert Describes(s, answers, e, users[i]);
  }

  /** Each extractable entry describes some joined user. */
  lemma EntriesYieldUsers(s: Settings, answers: string -> MembershipQuery, entries: seq<RawEntry>,
                          users: seq<LdapUser>, ordered: seq<LdapUser>, e: RawEntry)
    requires JoinAll(Candidates(s, entries), Checks(s, answers, Candidates(s, entries))) == Fulfilled(users)
    requires multiset(ordered) == multiset(users)
    requires e in entries && Extract(s, e).Some?
    ensures exists u :: u in ordered && Describes(s, answers, e, u)
  {
    var cs := Candidates(s, entries);
    var c := Extract(s, e).value;
    assert c in cs;
    var i :| 0 <= i < |cs| && cs[i] == c;
    JoinedUserAt(s, answers, entries, users, i);
    assert users[i] in multiset(ordered);
    assert Describes(s, answers, e, users[i]);
  }

  /** The joined users, in any settle order, are exactly the users the
      extractable entries describe. */
  lemma JoinedUsersDescribeEntries(s: Settings, answers: string -> MembershipQuery, entries: seq<RawEntry>,
                                   users: seq<LdapUser>, ordered: seq<LdapUser>)
    requires JoinAll(Candidates(s, entries), Checks(s, answers, Candidates(s, entries))) == Fulfilled(users)
    requires multiset(ordered) == multiset(users)
    ensures |ordered| == |Candidates(s, entries)|
    ensures forall u :: u in ordered ==> exists e :: e in entries && Describes(s, answers, e, u)
    ensures forall e :: e in entries && Extract(s, e).Some? ==> exists u :: u in ordered && Describes(s, answers, e, u)
  {
    assert |ordered| == |multiset(ordered)| == |multiset(users)| == |users|;
    forall u | u in ordered
      ensures exists e :: e in entries && Describes(s, answers, e, u)
    {
      UsersComeFromEntries(s, answers, entries, users, ordered, u);
    }
    forall e | e in entries && Extract(s, e).Some?
      ensures exists u :: u in ordered && Describes(s, answers, e, u)
    {
      EntriesYieldUsers(s, answers, entries, users, ordered, e);
    }
  }
}

=== FILE: extraction.dfy ===
/**
  Turning one raw directory entry into the `LdapUser` record both sync
  controllers work with: the attribute list is flattened into a map (the
  last attribute of a type wins), and entries without a DN, an attribute
  list, an email attribute or a name attribute are dropped.
 */
module Extraction {
  import opened Wrappers
  import opened Js
  import opened LdapSettings

  /** The values of one attribute; a directory reports at least one. */
  type Values = s: seq<string> | |s| > 0 witness [""]

  datatype Attribute = Attribute(attrType: string, values: Values)

  /** The `pojo` form of a search entry; either part may be missing. */
  datatype RawEntry = RawEntry(objectName: Option<string>, attributes: Option<seq<Attribute>>)

  /** The fields taken from an entry before its group membership is known. */
  datatype Candidate = Candidate(dn: string, mail: string, cn: Values, userPassword: Option<string>)

  /** The `LdapUser` record: a candidate together with its admin flag. */
  datatype LdapUser = LdapUser(mail: string, cn: Values, userPassword: Option<string>, isAdmin: bool)

  /** Some attribute of `attrs` has type `k`. */
  ghost predicate HasType(attrs: seq<Attribute>, k: string) {
    exists i :: 0 <= i < |attrs| && attrs[i].attrType == k
  }

  /** No later attribute of `attrs` has the same type as the one at `i`. */
  ghost predicate LastOfType(attrs: seq<Attribute>, i: int) {
    && 0 <= i < |attrs|
    && forall j :: i < j < |attrs| ==> attrs[j].attrType != attrs[i].attrType
  }

  /** The attribute map built by `attributes.reduce((acc, attr) => { acc[attr.type] = attr.values; ... }, {})`:
      each attribute in turn overwrites the entry of its type. */
  function Flatten(attrs: seq<Attribute>): (m: map<string, Values>)
    decreases |attrs|
    // one key at most per attribute: a repeated type overwrites its entry
    ensures |m| <= |attrs|
    ensures |attrs| > 0 ==> |m| >= 1
  {
    if |attrs| == 0 then map[]
    else
      var n := |attrs| - 1;
      var before := Flatten(attrs[..n]);
      var k := attrs[n].attrType;
      assert before[k := attrs[n].values].Keys == before.Keys + {k};
      before[k := attrs[n].values]
  }

  /** The flattened map has a key exactly for each attribute type present. */
  lemma {:induction false} FlattenKeys(attrs: seq<Attribute>, k: string)
    decreases |attrs|
    ensures k in Flatten(attrs) <==> HasType(attrs, k)
  {
    if |attrs| > 0 {
      var n := |attrs| - 1;
      var prefix := attrs[..n];
      FlattenKeys(prefix, k);
      if HasType(attrs, k) && k != attrs[n].attrType {
        var i :| 0 <= i < |attrs| && attrs[i].attrType == k;
        assert prefix[i] == attrs[i];
      }
      if HasType(prefix, k) {
        var i :| 0 <= i < |prefix| && prefix[i].attrType == k;
        assert attrs[i] == prefix[i];
      }
    }
  }

  /** Each type maps to the values of the last attribute of that type:
      the last writer wins. */
  lemma {:induction false} FlattenLastWriterWins(attrs: seq<Attribute>, i: int)
    requires LastOfType(attrs, i)
    decreases |attrs|
    ensures attrs[i].attrType in Flatten(attrs) && Flatten(attrs)[attrs[i].attrType] == attrs[i].values
  {
    var n := |attrs| - 1;
    if i < n {
      var prefix := attrs[..n];
      assert prefix[i] == attrs[i];
      assert LastOfType(prefix, i);
      FlattenLastWriterWins(prefix, i);
    }
  }

  /** The `for (const attr of ldapUser.attributes)` loop of the second
      controller builds the same map as the `reduce` of the first. */
  method FlattenLoop(attrs: seq<Attribute>) returns (m: map<string, Values>)
    ensures m == Flatten(attrs)
  {
    m := map[];
    for i := 0 to |attrs|
      invariant m == Flatten(attrs[..i])
    {
      assert attrs[..i + 1][..i] == attrs[..i];
      m := m[attrs[i].attrType := attrs[i].values];
    }
    assert attrs[..|attrs|] == attrs;
  }

  /** Every type present has a last attribute of that type. */
  lemma {:induction false} LastOfTypeExists(attrs: seq<Attribute>, i: int)
    requires 0 <= i < |attrs|
    ensures exists j :: LastOfType(attrs, j) && attrs[j].attrType == attrs[i].attrType
    decreases |attrs| - i
  {
    if !LastOfType(attrs, i) {
      var j :| i < j < |attrs| && attrs[j].attrType == attrs[i].attrType;
      LastOfTypeExists(attrs, j);
    }
  }

  /** The first value of the last attribute of type `k`. */
  ghost predicate FirstValueOf(attrs: seq<Attribute>, k: string, v: string) {
    exists i :: LastOfType(attrs, i) && attrs[i].attrType == k && attrs[i].values[0] == v
  }

  /** All values of the last attribute of type `k`. */
  ghost predicate AllValuesOf(attrs: seq<Attribute>, k: string, vs: Values) {
    exists i :: LastOfType(attrs, i) && attrs[i].attrType == k && attrs[i].values == vs
  }

  /** The extraction step of the `searchEntry` handler. An entry yields a
      candidate exactly when it has a non-empty DN, an attribute list, and
      attributes of the configured email and name types; the candidate's
      email is the first email value, its names are all name values, and its
      password is the first password value when that attribute exists. */
  function Extract(s: Settings, e: RawEntry): (r: Option<Candidate>)
    ensures r.Some? <==>
      && Truthy(e.objectName) && e.attributes.Some?
      && HasType(e.attributes.value, s.emailAttribute)
      && HasType(e.attributes.value, s.nameAttribute)
    ensures r.Some? ==> r.value.dn == e.objectName.value
    ensures r.Some? ==> FirstValueOf(e.attributes.value, s.emailAttribute, r.value.mail)
    ensures r.Some? ==> AllValuesOf(e.attributes.value, s.nameAttribute, r.value.cn)
    ensures r.Some? ==> (r.value.userPassword.Some? <==> HasType(e.attributes.value, s.passwordAttribute))
    ensures r.Some? && r.value.userPassword.Some? ==>
      FirstValueOf(e.attributes.value, s.passwordAttribute, r.value.userPassword.value)
  {
    if !Truthy(e.objectName) || e.attributes.None? then None
    else
      var attrs := e.attributes.value;
      var m := Flatten(attrs);
      FlattenKeys(attrs, s.emailAttribute);
      FlattenKeys(attrs, s.nameAttribute);
      FlattenKeys(attrs, s.passwordAttribute);
      if s.emailAttribute !in m || s.nameAttribute !in m then None
      else
        var password := if s.passwordAttribute in m then Some(m[s.passwordAttribute][0]) else None;
        ExtractedFieldsAreLastValues(attrs, s);
        Some(Candidate(e.objectName.value, m[s.emailAttribute][0], m[s.nameAttribute], password))
  }

  /** Connects the map lookups of `Extract` to the last attributes of each
      configured type. */
  lemma ExtractedFieldsAreLastValues(attrs: seq<Attribute>, s: Settings)
    ensures var m := Flatten(attrs);
      && (s.emailAttribute in m ==> FirstValueOf(attrs, s.emailAttribute, m[s.emailAttribute][0]))
      && (s.nameAttribute in m ==> AllValuesOf(attrs, s.nameAttribute, m[s.nameAttribute]))
      && (s.passwordAttribute in m ==> FirstValueOf(attrs, s.passwordAttribute, m[s.passwordAttribute][0]))
  {
    var m := Flatten(attrs);
    forall k | k in m
      ensures exists j :: LastOfType(attrs, j) && attrs[j].attrType == k && attrs[j].values == m[k]
    {
      FlattenKeys(attrs, k);
      var i :| 0 <= i < |attrs| && attrs[i].attrType == k;
      LastOfTypeExists(attrs, i);
      var j :| LastOfType(attrs, j) && attrs[j].attrType == k;
      FlattenLastWriterWins(attrs, j);
    }
  }

  /** The `LdapUser` pushed once the membership check of `c` answered `isAdmin`. */
  function ToUser(c: Candidate, isAdmin: bool): (u: LdapUser)
    ensures u.mail == c.mail && u.cn == c.cn && u.userPassword == c.userPassword
    ensures u.isAdmin == isAdmin
  {
    LdapUser(c.mail, c.cn, c.userPassword, isAdmin)
  }
}

=== FILE: js.dfy ===
/**
  The few JavaScript value rules the services depend on: which strings are
  truthy, and what `a || b` and `process.env.X || 'literal'` evaluate to.
  A string-valued field that may be absent is an `Option<string>`, where
  `None` is `undefined`.
 */
module Js {
  import opened Wrappers

  /** A possibly-undefined string is truthy when it is defined and not empty. */
  predicate Truthy(v: Option<string>) {
    v.Some? && v.value != ""
  }

  /** `a || b` on possibly-undefined strings. */
  function Or(a: Option<string>, b: Option<string>): Option<string> {
    if Truthy(a) then a else b
  }

  /** `v || undefined`: a falsy string becomes `undefined`. */
  function OrUndefined(v: Option<string>): (r: Option<string>)
    ensures r.Some? <==> Truthy(v)
    ensures r.Some? ==> r == v
  {
    if Truthy(v) then v else None
  }

  /** `v || fallback` where the fallback is a literal string. */
  function OrLiteral(v: Option<string>, fallback: string): (r: string)
    ensures Truthy(v) ==> r == v.value
    ensures !Truthy(v) ==> r == fallback
  {
    if Truthy(v) then v.value else fallback
  }
}

=== FILE: ldap_client.dfy ===
/**
  The directory client each controller owns: created lazily on the first
  request and reused afterwards, and the group-membership filter it sends.
 */
module LdapClient {

  /** A client connected to the URL it was created with. */
  datatype Client = Client(url: string)

  /** The controller's `ldapClient` field: empty until the first request. */
  datatype ClientSlot = Empty | Holds(client: Client)

  /** One `getLdapClient` call: the client it returns, the field afterwards,
      and whether it had to create a client. */
  datatype Acquired = Acquired(client: Client, slot: ClientSlot, created: bool)

  /** `getLdapClient`, given the URL setting current at the time of the call. */
  function GetClient(slot: ClientSlot, url: string): (r: Acquired)
    ensures r.slot == Holds(r.client)
    ensures r.created <==> slot.Empty?
    ensures slot.Holds? ==> r.client == slot.client
    ensures slot.Empty? ==> r.client.url == url
  {
    match slot
    case Holds(c) => Acquired(c, slot, false)
    case Empty => Acquired(Client(url), Holds(Client(url)), true)
  }

  /** The result of a series of `getLdapClient` calls on one controller. */
  datatype Series = Series(clients: seq<Client>, slot: ClientSlot, creations: nat)

  /** Issues one `getLdapClient` call per URL setting in `urls`, in order. */
  function GetClients(slot: ClientSlot, urls: seq<string>): Series
    decreases |urls|
  {
    if |urls| == 0 then Series([], slot, 0)
    else
      var first := GetClient(slot, urls[0]);
      var rest := GetClients(first.slot, urls[1..]);
      Series([first.client] + rest.clients, rest.slot, rest.creations + (if first.created then 1 else 0))
  }

  /** However many times a controller asks for its client, at most one client
      is ever created, and every call returns that same client: the one built
      from the URL current at the first call, or the one already held. */
  lemma {:induction false} ClientCreatedAtMostOnce(slot: ClientSlot, urls: seq<string>)
    decreases |urls|
    ensures GetClients(slot, urls).creations <= 1
    ensures GetClients(slot, urls).creations == 1 <==> slot.Empty? && |urls| > 0
    ensures |GetClients(slot, urls).clients| == |urls|
    ensures slot.Holds? ==> forall i :: 0 <= i < |urls| ==> GetClients(slot, urls).clients[i] == slot.client
    ensures slot.Empty? && |urls| > 0 ==>
      forall i :: 0 <= i < |urls| ==> GetClients(slot, urls).clients[i] == Client(urls[0])
  {
    if |urls| > 0 {
      var first := GetClient(slot, urls[0]);
      ClientCreatedAtMostOnce(first.slot, urls[1..]);
    }
  }

  /** An LDAP equality filter `(attr=value)` in the string syntax of section 3
      of RFC 4515. The value is inserted as given, without escaping. */
  function EqualityFilter(attr: string, value: string): string {
    "(" + attr + "=" + value + ")"
  }

  /** The conjunction `(&f1 f2 ...)` of already formatted filters. */
  function AndFilter(items: seq<string>): string {
    "(&" + Concat(items) + ")"
  }

  function Concat(items: seq<string>): string {
    if |items| == 0 then "" else items[0] + Concat(items[1..])
  }

  lemma ConcatThree(a: string, b: string, c: string)
    ensures Concat([a, b, c]) == a + b + c
  {
    assert [a, b, c][1..] == [b, c] && [b, c][1..] == [c] && [c][1..] == [];
    assert Concat([c]) == c + "" == c;
    assert Concat([b, c]) == b + c;
    assert Concat([a, b, c]) == a + (b + c);
  }

  /** The filter `isUserInGroup` searches with. */
  function GroupFilter(groupCn: string, userDn: string): (f: string)
    ensures f == AndFilter([EqualityFilter("objectClass", "groupOfNames"),
                            EqualityFilter("cn", groupCn),
                            EqualityFilter("member", userDn)])
  {
    var a, b, c := EqualityFilter("objectClass", "groupOfNames"), EqualityFilter("cn", groupCn), EqualityFilter("member", userDn);
    ConcatThree(a, b, c);
    "(&" + (a + b + c) + ")"
  }

  /** While the group name contains no closing parenthesis, the filter
      determines both the group name and the member DN it was built from. */
  lemma GroupFilterInjective(g1: string, d1: string, g2: string, d2: string)
    requires ')' !in g1 && ')' !in g2
    requires GroupFilter(g1, d1) == GroupFilter(g2, d2)
    ensures g1 == g2 && d1 == d2
  {
    var p := "(&(objectClass=groupOfNames)(cn=";
    GroupNameEndsAtFirstParenthesis(g1, d1);
    GroupNameEndsAtFirstParenthesis(g2, d2);
    var f := GroupFilter(g1, d1);
    if |g1| != |g2| {
      assert false;
    }
    assert g1 == f[|p|..|p| + |g1|];
    var q := |p| + |g1| + |")(member="|;
    assert d1 == f[q..|f| - 2];
  }

  /** After the fixed prefix, the group name runs up to the first `)`. */
  lemma GroupNameEndsAtFirstParenthesis(g: string, d: string)
    requires ')' !in g
    ensures var p := "(&(objectClass=groupOfNames)(cn=";
      && GroupFilter(g, d)[|p|..|p| + |g|] == g
      && GroupFilter(g, d)[|p| + |g|] == ')'
      && (forall k :: |p| <= k < |p| + |g| ==> GroupFilter(g, d)[k] != ')')
      && GroupFilter(g, d)[|p| + |g| + |")(member="|..|GroupFilter(g, d)| - 2] == d
  {
  }
}

=== FILE: ldap_settings.dfy ===
/**
  The directory settings both sync controllers read from the process
  environment. Each variable that is unset or empty falls back to a literal
  default, so every resolved setting is a non-empty string.
 */
module LdapSettings {
  import opened Wrappers
  import opened Js

  /** The raw environment variables, `None` when unset. */
  datatype LdapEnv = LdapEnv(
    url: Option<string>,                // LDAP_URL
    bindDn: Option<string>,             // LDAP_BIND_DN
    bindPassword: Option<string>,       // LDAP_BIND_PASSWORD
    userBaseDn: Option<string>,         // LDAP_USER_BASE_DN
    userFilter: Option<string>,         // LDAP_USER_FILTER
    emailAttribute: Option<string>,     // LDAP_EMAIL_ATTRIBUTE
    nameAttribute: Option<string>,      // LDAP_NAME_ATTRIBUTE
    passwordAttribute: Option<string>,  // LDAP_PASSWORD_ATTRIBUTE
    adminGroup: Option<string>          // LDAP_ADMIN_GROUP
  )

  const DefaultUrl: string := "ldap://openldap:1389"
  const DefaultBindDn: string := "cn=admin,dc=example,dc=org"
  const DefaultBindPassword: string := "adminpassword"
  const DefaultUserBaseDn: string := "ou=users,dc=example,dc=org"
  const DefaultUserFilter: string := "(objectClass=inetOrgPerson)"
  const DefaultEmailAttribute: string := "mail"
  const DefaultNameAttribute: string := "cn"
  const DefaultPasswordAttribute: string := "userPassword"
  const DefaultAdminGroup: string := "admins"

  /** The settings after the `|| 'literal'` fallbacks have been applied. */
  datatype Settings = Settings(
    url: string,
    bindDn: string,
    bindPassword: string,
    userBaseDn: string,
    userFilter: string,
    emailAttribute: string,
    nameAttribute: string,
    passwordAttribute: string,
    adminGroup: string
  )

  /** True when every setting is a usable (non-empty) string. */
  predicate Complete(s: Settings) {
    && s.url != "" && s.bindDn != "" && s.bindPassword != ""
    && s.userBaseDn != "" && s.userFilter != ""
    && s.emailAttribute != "" && s.nameAttribute != "" && s.passwordAttribute != ""
    && s.adminGroup != ""
  }

  /** Applies the literal fallback to each environment variable. */
  function Resolve(env: LdapEnv): (s: Settings)
    ensures Complete(s)
    // a set, non-empty variable is used as given
    ensures Truthy(env.url) ==> s.url == env.url.value
    ensures Truthy(env.bindDn) ==> s.bindDn == env.bindDn.value
    ensures Truthy(env.bindPassword) ==> s.bindPassword == env.bindPassword.value
    ensures Truthy(env.userBaseDn) ==> s.userBaseDn == env.userBaseDn.value
    ensures Truthy(env.userFilter) ==> s.userFilter == env.userFilter.value
    ensures Truthy(env.emailAttribute) ==> s.emailAttribute == env.emailAttribute.value
    ensures Truthy(env.nameAttribute) ==> s.nameAttribute == env.nameAttribute.value
    ensures Truthy(env.passwordAttribute) ==> s.passwordAttribute == env.passwordAttribute.value
    ensures Truthy(env.adminGroup) ==> s.adminGroup == env.adminGroup.value
    // an unset or empty one falls back to its literal default
    ensures !Truthy(env.url) ==> s.url == "ldap://openldap:1389"
    ensures !Truthy(env.bindDn) ==> s.bindDn == "cn=admin,dc=example,dc=org"
    ensures !Truthy(env.bindPassword) ==> s.bindPassword == "adminpassword"
    ensures !Truthy(env.userBaseDn) ==> s.userBaseDn == "ou=users,dc=example,dc=org"
    ensures !Truthy(env.userFilter) ==> s.userFilter == "(objectClass=inetOrgPerson)"
    ensures !Truthy(env.emailAttribute) ==> s.emailAttribute == "mail"
    ensures !Truthy(env.nameAttribute) ==> s.nameAttribute == "cn"
    ensures !Truthy(env.passwordAttribute) ==> s.passwordAttribute == "userPassword"
    ensures !Truthy(env.adminGroup) ==> s.adminGroup == "admins"
  {
    Settings(
      OrLiteral(env.url, DefaultUrl),
      OrLiteral(env.bindDn, DefaultBindDn),
      OrLiteral(env.bindPassword, DefaultBindPassword),
      OrLiteral(env.userBaseDn, DefaultUserBaseDn),
      OrLiteral(env.userFilter, DefaultUserFilter),
      OrLiteral(env.emailAttribute, DefaultEmailAttribute),
      OrLiteral(env.nameAttribute, DefaultNameAttribute),
      OrLiteral(env.passwordAttribute, DefaultPasswordAttribute),
      OrLiteral(env.adminGroup, DefaultAdminGroup)
    )
  }
}

=== FILE: membership.dfy ===
/**
  The group-membership check `isUserInGroup`: a search whose result stream is
  an explicit trace of events. The returned promise settles at the first
  terminal event; entries seen before it decide the answer, an error event
  answers false, and a trace without a terminal event never settles.
 */
module Membership {

  /** One event of a search result stream whose entries are not inspected. */
  datatype SearchEvent = SearchEntry | SearchEnd | SearchError

  /** What the directory does with one membership search: the promisified
      `search` call itself fails, or it yields a stream of events. */
  datatype MembershipQuery = QueryRejected | QueryStream(events: seq<SearchEvent>)

  /** The state a promise is left in once the trace has been delivered. */
  datatype Settlement<T> = Fulfilled(value: T) | Rejected | Pending

  /** `t` is the position of the first terminal event of `events`. */
  ghost predicate FirstTerminalAt(events: seq<SearchEvent>, t: int) {
    && 0 <= t < |events|
    && events[t] != SearchEntry
    && forall i :: 0 <= i < t ==> events[i] == SearchEntry
  }

  /** Replays the stream: `found` records whether an entry has been seen. */
  function Replay(events: seq<SearchEvent>, found: bool): (r: Settlement<bool>)
    ensures r != Rejected
    ensures r == Pending <==> forall i :: 0 <= i < |events| ==> events[i] == SearchEntry
    ensures r == Fulfilled(true) <==>
      exists t :: FirstTerminalAt(events, t) && events[t] == SearchEnd && (found || t > 0)
    ensures r == Fulfilled(false) <==>
      exists t :: FirstTerminalAt(events, t) && (events[t] == SearchError || (!found && t == 0))
  {
    if |events| == 0 then Pending
    else
      match events[0]
      case SearchEntry =>
        var r := Replay(events[1..], true);
        assert forall t :: FirstTerminalAt(events[1..], t) <==> FirstTerminalAt(events, t + 1);
        assert forall t :: FirstTerminalAt(events, t) ==> t > 0 && FirstTerminalAt(events[1..], t - 1);
        r
      case SearchEnd =>
        assert FirstTerminalAt(events, 0);
        Fulfilled(found)
      case SearchError =>
        assert FirstTerminalAt(events, 0);
        Fulfilled(false)
  }

  /** `isUserInGroup`: true exactly when an entry precedes a first terminal
      event that is the end of results; false when that event is an error or
      the end comes first; rejected when the search call itself fails. */
  function IsUserInGroup(q: MembershipQuery): (r: Settlement<bool>)
    ensures q.QueryRejected? <==> r == Rejected
    ensures q.QueryStream? ==>
      (r == Fulfilled(true) <==> exists t :: FirstTerminalAt(q.events, t) && q.events[t] == SearchEnd && t > 0)
    ensures q.QueryStream? ==>
      (r == Fulfilled(false) <==> exists t :: FirstTerminalAt(q.events, t) && (q.events[t] == SearchError || t == 0))
    ensures q.QueryStream? ==>
      (r == Pending <==> forall i :: 0 <= i < |q.events| ==> q.events[i] == SearchEntry)
  {
    match q
    case QueryRejected => Rejected
    case QueryStream(events) => Replay(events, false)
  }

  /** An error event answers false wherever it falls, unless an end event
      comes before it. */
  lemma ErrorBeforeEndMeansNotMember(events: seq<SearchEvent>, k: nat)
    requires k < |events| && events[k] == SearchError
    requires forall i :: 0 <= i < k ==> events[i] != SearchEnd
    ensures IsUserInGroup(QueryStream(events)) == Fulfilled(false)
  {
    var t :| 0 <= t <= k && FirstTerminalAt(events, t) by {
      FirstTerminalExists(events, k);
    }
    assert FirstTerminalAt(events, t);
    assert events[t] != SearchEntry;
    if t < k {
      assert events[t] != SearchEnd;
    }
    assert events[t] == SearchError;
  }

  /** Every trace holding a terminal event has a first one. */
  lemma {:induction false} FirstTerminalExists(events: seq<SearchEvent>, k: nat)
    requires k < |events| && events[k] != SearchEntry
    ensures exists t :: 0 <= t <= k && FirstTerminalAt(events, t)
  {
    if forall i :: 0 <= i < k ==> events[i] == SearchEntry {
      assert FirstTerminalAt(events, k);
    } else {
      var j :| 0 <= j < k && events[j] != SearchEntry;
      FirstTerminalExists(events, j);
    }
  }
}

=== FILE: reconciliation.dfy ===
/**
  The per-user loop of the sync: each `LdapUser` is skipped (no password),
  updated (an account with its email exists) or created, against a local
  account store keyed by email. An exception while handling one user is
  caught, counts nowhere, and the loop goes on.
 */
module Reconciliation {
  import opened Wrappers
  import opened Js
  import opened Extraction

  /** A local account as the user repository holds it. */
  datatype Account = Account(
    id: string,
    email: string,
    name: string,
    isAdmin: bool,
    password: string,
    storageLabel: string,
    shouldChangePassword: bool
  )

  /** The user repository, keyed by email as `getByEmail` looks it up. */
  type Store = map<string, Account>

  /** Every account is filed under its own email. */
  ghost predicate KeyedByEmail(store: Store) {
    forall e :: e in store ==> store[e].email == e
  }

  /** The `updates` object passed to `update`: only staged fields are present. */
  datatype Patch = Patch(isAdmin: Option<bool>, password: Option<string>)

  /** The object passed to `create`. */
  datatype NewAccount = NewAccount(
    isAdmin: bool,
    email: string,
    name: string,
    password: string,
    storageLabel: string,
    shouldChangePassword: bool
  )

  /** A call made to the password hasher or the user repository. */
  datatype Effect =
    | HashCall(secret: string, rounds: nat)
    | LookupCall(email: string)
    | UpdateCall(id: string, patch: Patch)
    | CreateCall(fields: NewAccount)

  /** Where handling one user throws, if it does. */
  datatype Fault = NoFault | HashThrows | LookupThrows | WriteThrows

  /** What differs between the two controllers: the bcrypt work factor and
      the UUID source behind the storage label of a new account. */
  datatype SyncParams = SyncParams(workFactor: nat, randomUuid: nat -> string)

  /** The collaborators of one run, indexed by the position of the user in
      the loop: bcrypt (salted, so each call may differ), the id the
      repository gives a created account, and where handling throws. */
  datatype Services = Services(hash: (nat, string, nat) -> string, newId: nat -> string, fault: nat -> Fault)

  datatype Decision = Skipped | Updated | Created | Failed

  /** The effect of handling one user. */
  datatype Step = Step(decision: Decision, store: Store, effects: seq<Effect>)

  /** An account after `update(id, patch)`: staged fields replaced. */
  function ApplyPatch(a: Account, patch: Patch): (b: Account)
    ensures b.id == a.id && b.email == a.email && b.name == a.name
    ensures b.storageLabel == a.storageLabel && b.shouldChangePassword == a.shouldChangePassword
    ensures b.isAdmin == patch.isAdmin.GetOr(a.isAdmin)
    ensures b.password == patch.password.GetOr(a.password)
  {
    Account(a.id, a.email, a.name, patch.isAdmin.GetOr(a.isAdmin), patch.password.GetOr(a.password),
            a.storageLabel, a.shouldChangePassword)
  }

  /** The prefix every storage label starts with. */
  const LabelPrefix: string := "user-"

  /** The body of the `try` block for the user at position `i`. */
  function ProcessUser(p: SyncParams, svc: Services, i: nat, u: LdapUser, store: Store): (r: Step)
    // no password: skipped, with no hash or repository call
    ensures r.decision == Skipped <==> !Truthy(u.userPassword)
    ensures r.decision == Skipped ==> r.store == store && r.effects == []
    // a password is always hashed first, with the controller's work factor
    ensures Truthy(u.userPassword) ==> |r.effects| >= 1 && r.effects[0] == HashCall(u.userPassword.value, p.workFactor)
    // a failure leaves the store as it was
    ensures r.decision == Failed <==> Truthy(u.userPassword) && svc.fault(i) != NoFault
    ensures r.decision == Failed ==> r.store == store
    // a throw ends the calls with the one that threw
    ensures Truthy(u.userPassword) && svc.fault(i) == HashThrows ==>
      r.effects == [HashCall(u.userPassword.value, p.workFactor)]
    ensures Truthy(u.userPassword) && svc.fault(i) == LookupThrows ==>
      r.effects == [HashCall(u.userPassword.value, p.workFactor), LookupCall(u.mail)]
    // an existing account gets exactly one update (made even if it throws),
    // carrying the fresh hash, and carrying the directory's admin flag exactly
    // when it differs
    ensures Truthy(u.userPassword) && svc.fault(i) in {NoFault, WriteThrows} && u.mail in store ==>
      && |r.effects| == 3 && r.effects[2].UpdateCall?
      && r.effects[..2] == [HashCall(u.userPassword.value, p.workFactor), LookupCall(u.mail)]
      && r.effects[2].id == store[u.mail].id
      && r.effects[2].patch.password == Some(svc.hash(i, u.userPassword.value, p.workFactor))
      && (r.effects[2].patch.isAdmin.Some? <==> store[u.mail].isAdmin != u.isAdmin)
      && (r.effects[2].patch.isAdmin.Some? ==> r.effects[2].patch.isAdmin.value == u.isAdmin)
    ensures Truthy(u.userPassword) && svc.fault(i) == NoFault && u.mail in store ==>
      && r.decision == Updated
      && r.store == store[u.mail := store[u.mail].(isAdmin := u.isAdmin, password := svc.hash(i, u.userPassword.value, p.workFactor))]
    // a new email gets exactly one create (made even if it throws) with the
    // fields of the user and a storage label drawn from the controller's UUID
    // source
    ensures Truthy(u.userPassword) && svc.fault(i) in {NoFault, WriteThrows} && u.mail !in store ==>
      && |r.effects| == 3 && r.effects[2].CreateCall?
      && r.effects[..2] == [HashCall(u.userPassword.value, p.workFactor), LookupCall(u.mail)]
      && var f := r.effects[2].fields;
      && f.isAdmin == u.isAdmin && f.email == u.mail && f.name == u.cn[0]
      && f.password == svc.hash(i, u.userPassword.value, p.workFactor)
      && f.storageLabel == LabelPrefix + p.randomUuid(i)
      && !f.shouldChangePassword
    ensures Truthy(u.userPassword) && svc.fault(i) == NoFault && u.mail !in store ==>
      && r.decision == Created
      && var f := r.effects[2].fields;
      && r.store == store[u.mail := Account(svc.newId(i), f.email, f.name, f.isAdmin, f.password, f.storageLabel, false)]
  {
    if !Truthy(u.userPassword) then Step(Skipped, store, [])
    else
      var secret := u.userPassword.value;
      var hashed := svc.hash(i, secret, p.workFactor);
      var hashing := [HashCall(secret, p.workFactor)];
      if svc.fault(i) == HashThrows then Step(Failed, store, hashing)
      else
        var looked := hashing + [LookupCall(u.mail)];
        if svc.fault(i) == LookupThrows then Step(Failed, store, looked)
        else if u.mail in store then
          var existing := store[u.mail];
          var patch := Patch(if existing.isAdmin != u.isAdmin then Some(u.isAdmin) else None, Some(hashed));
          // `needsUpdate` is set by every staged field, and the password is always staged
          var needsUpdate := patch.isAdmin.Some? || patch.password.Some?;
          if !needsUpdate then Step(Skipped, store, looked)
          else
            var calls := looked + [UpdateCall(existing.id, patch)];
            if svc.fault(i) == WriteThrows then Step(Failed, store, calls)
            else
              assert svc.fault(i).NoFault?;
              Step(Updated, store[u.mail := ApplyPatch(existing, patch)], calls)
        else
          var fields := NewAccount(u.isAdmin, u.mail, u.cn[0], hashed, LabelPrefix + p.randomUuid(i), false);
          var calls := looked + [CreateCall(fields)];
          if svc.fault(i) == WriteThrows then Step(Failed, store, calls)
          else
            assert svc.fault(i).NoFault?;
            Step(Created, store[u.mail := Account(svc.newId(i), fields.email, fields.name, fields.isAdmin,
                                                  fields.password, fields.storageLabel, false)], calls)
  }

  /** The three counters the sync returns. */
  datatype Outcome = Outcome(created: nat, updated: nat, skipped: nat)

  /** The state of the loop: the counters, the users whose handling threw,
      the store, every call made, and each user's decision in order. */
  datatype Progress = Progress(outcome: Outcome, failed: nat, store: Store, effects: seq<Effect>, decisions: seq<Decision>)

  /** Adds one decision to the counters. */
  function Tally(o: Outcome, d: Decision): Outcome {
    match d
    case Created => o.(created := o.created + 1)
    case Updated => o.(updated := o.updated + 1)
    case Skipped => o.(skipped := o.skipped + 1)
    case Failed => o
  }

  /** How many users have no (or an empty) password. */
  function NoPasswordCount(users: seq<LdapUser>): nat {
    if |users| == 0 then 0
    else NoPasswordCount(users[..|users| - 1]) + (if Truthy(users[|users| - 1].userPassword) then 0 else 1)
  }

  /** The `for (const ldapUser of ldapUsers)` loop. */
  function Reconcile(p: SyncParams, svc: Services, users: seq<LdapUser>, store: Store): (r: Progress)
    decreases |users|
    ensures |r.decisions| == |users|
    ensures r.outcome.created + r.outcome.updated + r.outcome.skipped + r.failed == |users|
  {
    if |users| == 0 then Progress(Outcome(0, 0, 0), 0, store, [], [])
    else
      var n := |users| - 1;
      var before := Reconcile(p, svc, users[..n], store);
      var step := ProcessUser(p, svc, n, users[n], before.store);
      Progress(Tally(before.outcome, step.decision),
               before.failed + (if step.decision == Failed then 1 else 0),
               step.store,
               before.effects + step.effects,
               before.decisions + [step.decision])
  }

  /** How many of the decisions are `d`. */
  function Occurrences(ds: seq<Decision>, d: Decision): nat {
    if |ds| == 0 then 0
    else Occurrences(ds[..|ds| - 1], d) + (if ds[|ds| - 1] == d then 1 else 0)
  }

  /** Counters that count a list of decisions still count it after one more
      decision is tallied. */
  lemma TallyCounts(o: Outcome, failed: nat, ds: seq<Decision>, x: Decision)
    requires o.created == Occurrences(ds, Created) && o.updated == Occurrences(ds, Updated)
    requires o.skipped == Occurrences(ds, Skipped) && failed == Occurrences(ds, Failed)
    ensures var o' := Tally(o, x);
      && o'.created == Occurrences(ds + [x], Created) && o'.updated == Occurrences(ds + [x], Updated)
      && o'.skipped == Occurrences(ds + [x], Skipped)
      && failed + (if x == Failed then 1 else 0) == Occurrences(ds + [x], Failed)
  {
    assert (ds + [x])[..|ds|] == ds;
  }

  /** Each counter counts exactly the users with that decision, and a user
      whose handling threw counts in none of the three: it is only `failed`. */
  lemma {:induction false} CountersCountDecisions(p: SyncParams, svc: Services, users: seq<LdapUser>, store: Store)
    decreases |users|
    ensures var r := Reconcile(p, svc, users, store);
      && r.outcome.created == Occurrences(r.decisions, Created)
      && r.outcome.updated == Occurrences(r.decisions, Updated)
      && r.outcome.skipped == Occurrences(r.decisions, Skipped)
      && r.failed == Occurrences(r.decisions, Failed)
  {
    if |users| > 0 {
      var n := |users| - 1;
      CountersCountDecisions(p, svc, users[..n], store);
      var before := Reconcile(p, svc, users[..n], store);
      var step := ProcessUser(p, svc, n, users[n], before.store);
      TallyCounts(before.outcome, before.failed, before.decisions, step.decision);
    }
  }

  /** Which users are skipped and which fail depends only on each user and
      on where handling throws: a user is skipped exactly when it has no
      password, and fails exactly when it has one and its handling throws. */
  lemma {:induction false} DecisionsFollowUsers(p: SyncParams, svc: Services, users: seq<LdapUser>, store: Store)
    decreases |users|
    ensures var r := Reconcile(p, svc, users, store);
      forall i :: 0 <= i < |users| ==>
        && (r.decisions[i] == Skipped <==> !Truthy(users[i].userPassword))
        && (r.decisions[i] == Failed <==> Truthy(users[i].userPassword) && svc.fault(i) != NoFault)
  {
    if |users| > 0 {
      var n := |users| - 1;
      DecisionsFollowUsers(p, svc, users[..n], store);
      var r := Reconcile(p, svc, users, store);
      var before := Reconcile(p, svc, users[..n], store);
      var step := ProcessUser(p, svc, n, users[n], before.store);
      assert r.decisions == before.decisions + [step.decision];
      forall i | 0 <= i < |users|
        ensures r.decisions[i] == Skipped <==> !Truthy(users[i].userPassword)
        ensures r.decisions[i] == Failed <==> Truthy(users[i].userPassword) && svc.fault(i) != NoFault
      {
        if i < n {
          assert users[..n][i] == users[i] && r.decisions[i] == before.decisions[i];
        } else {
          assert r.decisions[i] == step.decision;
        }
      }
    }
  }

  /** The `skipped` counter is the number of users without a password. */
  lemma {:induction false} SkippedCountsUsersWithoutPassword(p: SyncParams, svc: Services, users: seq<LdapUser>, store: Store)
    decreases |users|
    ensures Reconcile(p, svc, users, store).outcome.skipped == NoPasswordCount(users)
  {
    if |users| > 0 {
      SkippedCountsUsersWithoutPassword(p, svc, users[..|users| - 1], store);
    }
  }

  /** A per-user failure counts nowhere, so the three counters add up to at
      most the number of users, and to exactly that number when nothing throws. */
  lemma {:induction false} CountersAddUp(p: SyncParams, svc: Services, users: seq<LdapUser>, store: Store)
    decreases |users|
    ensures var o := Reconcile(p, svc, users, store).outcome;
      o.created + o.updated + o.skipped <= |users|
    ensures var o := Reconcile(p, svc, users, store).outcome;
      (forall i :: 0 <= i < |users| ==> svc.fault(i) == NoFault) ==> o.created + o.updated + o.skipped == |users|
  {
    if |users| > 0 {
      var n := |users| - 1;
      CountersAddUp(p, svc, users[..n], store);
    }
  }

  /** How handling one user can change the store: not at all when it is
      skipped or fails; otherwise only the account under the user's email,
      which exists afterwards, is new exactly when it is created, and keeps
      its id, email, name and storage label when it is updated. */
  lemma StepShape(p: SyncParams, svc: Services, i: nat, u: LdapUser, store: Store)
    ensures var st := ProcessUser(p, svc, i, u, store);
      && (st.decision == Skipped || st.decision == Failed ==> st.store == store)
      && (st.decision == Created ==> u.mail !in store && st.store.Keys == store.Keys + {u.mail})
      && (st.decision == Updated ==> u.mail in store && st.store.Keys == store.Keys)
      && (st.decision == Created || st.decision == Updated ==>
            && u.mail in st.store
            && forall e :: e in store && e != u.mail ==> st.store[e] == store[e])
      && (st.decision == Updated ==>
            && st.store[u.mail].id == store[u.mail].id && st.store[u.mail].email == store[u.mail].email
            && st.store[u.mail].name == store[u.mail].name && st.store[u.mail].storageLabel == store[u.mail].storageLabel)
  {
  }

  /** The only hash call handling one user makes uses the controller's work factor. */
  lemma StepHashes(p: SyncParams, svc: Services, i: nat, u: LdapUser, store: Store)
    ensures var effects := ProcessUser(p, svc, i, u, store).effects;
      forall k :: 0 <= k < |effects| && effects[k].HashCall? ==> effects[k].rounds == p.workFactor
  {
  }

  /** The store only gains accounts, and an existing account keeps its id,
      email, name and storage label; handling a user only touches the
      account under that user's email. */
  lemma {:induction false} StoreOnlyGrows(p: SyncParams, svc: Services, users: seq<LdapUser>, store: Store)
    decreases |users|
    ensures var r := Reconcile(p, svc, users, store);
      && store.Keys <= r.store.Keys
      && forall e :: e in store ==>
           && r.store[e].id == store[e].id && r.store[e].email == store[e].email
           && r.store[e].name == store[e].name && r.store[e].storageLabel == store[e].storageLabel
  {
    if |users| > 0 {
      var n := |users| - 1;
      StoreOnlyGrows(p, svc, users[..n], store);
      var before := Reconcile(p, svc, users[..n], store);
      var step := ProcessUser(p, svc, n, users[n], before.store);
      StepShape(p, svc, n, users[n], before.store);
      var r := Reconcile(p, svc, users, store);
      assert r.store == step.store;
      forall e | e in store
        ensures e in r.store
        ensures r.store[e].id == store[e].id && r.store[e].email == store[e].email
        ensures r.store[e].name == store[e].name && r.store[e].storageLabel == store[e].storageLabel
      {
        assert e in before.store;
      }
    }
  }

  /** Every account the run adds was created for a user with that email. */
  lemma {:induction false} NewAccountsWereCreated(p: SyncParams, svc: Services, users: seq<LdapUser>, store: Store, e: string)
    requires e in Reconcile(p, svc, users, store).store && e !in store
    decreases |users|
    ensures exists i :: 0 <= i < |users| && users[i].mail == e && Reconcile(p, svc, users, store).decisions[i] == Created
  {
    var n := |users| - 1;
    if |users| == 0 {
      assert false;
    }
    var before := Reconcile(p, svc, users[..n], store);
    var step := ProcessUser(p, svc, n, users[n], before.store);
    StepShape(p, svc, n, users[n], before.store);
    var r := Reconcile(p, svc, users, store);
    assert r.store == step.store && r.decisions == before.decisions + [step.decision];
    if e in before.store {
      NewAccountsWereCreated(p, svc, users[..n], store, e);
      var i :| 0 <= i < n && users[..n][i].mail == e && before.decisions[i] == Created;
      assert users[i] == users[..n][i] && r.decisions[i] == Created;
    } else {
      assert users[n].mail == e && r.decisions[n] == Created;
    }
  }

  /** A user that was created or updated has an account afterwards. */
  lemma {:induction false} HandledUserHasAccount(p: SyncParams, svc: Services, users: seq<LdapUser>, store: Store, i: int)
    requires 0 <= i < |users|
    requires Reconcile(p, svc, users, store).decisions[i] in {Created, Updated}
    decreases |users|
    ensures users[i].mail in Reconcile(p, svc, users, store).store
  {
    var n := |users| - 1;
    var before := Reconcile(p, svc, users[..n], store);
    var step := ProcessUser(p, svc, n, users[n], before.store);
    StepShape(p, svc, n, users[n], before.store);
    var r := Reconcile(p, svc, users, store);
    assert r.store == step.store && r.decisions == before.decisions + [step.decision];
    if i < n {
      assert users[..n][i] == users[i] && before.decisions[i] == r.decisions[i];
      HandledUserHasAccount(p, svc, users[..n], store, i);
    }
  }

  /** Every account the run adds was created for a user with that email, and
      every user that was created or updated has an account afterwards. */
  lemma AccountsMatchDecisions(p: SyncParams, svc: Services, users: seq<LdapUser>, store: Store)
    ensures var r := Reconcile(p, svc, users, store);
      && (forall e :: e in r.store && e !in store ==>
            exists i :: 0 <= i < |users| && users[i].mail == e && r.decisions[i] == Created)
      && (forall i :: 0 <= i < |users| && (r.decisions[i] == Created || r.decisions[i] == Updated) ==>
            users[i].mail in r.store)
  {
    var r := Reconcile(p, svc, users, store);
    forall e | e in r.store && e !in store
      ensures exists i :: 0 <= i < |users| && users[i].mail == e && r.decisions[i] == Created
    {
      NewAccountsWereCreated(p, svc, users, store, e);
    }
    forall i | 0 <= i < |users| && (r.decisions[i] == Created || r.decisions[i] == Updated)
      ensures users[i].mail in r.store
    {
      HandledUserHasAccount(p, svc, users, store, i);
    }
  }

  /** Accounts stay filed under their own email. */
  lemma {:induction false} KeyedByEmailPreserved(p: SyncParams, svc: Services, users: seq<LdapUser>, store: Store)
    requires KeyedByEmail(store)
    decreases |users|
    ensures KeyedByEmail(Reconcile(p, svc, users, store).store)
  {
    if |users| > 0 {
      var n := |users| - 1;
      KeyedByEmailPreserved(p, svc, users[..n], store);
      var before := Reconcile(p, svc, users[..n], store);
      StepShape(p, svc, n, users[n], before.store);
    }
  }

  /** The admin flag of the last user with a password and email `e`, if any. */
  function LastAdminFlag(users: seq<LdapUser>, e: string): Option<bool> {
    if |users| == 0 then None
    else
      var u := users[|users| - 1];
      if Truthy(u.userPassword) && u.mail == e then Some(u.isAdmin)
      else LastAdminFlag(users[..|users| - 1], e)
  }

  /** Without failures, each account ends with the admin flag of the last
      user with a password and its email, or keeps its flag if there is none. */
  lemma {:induction false} FinalAdminFlag(p: SyncParams, svc: Services, users: seq<LdapUser>, store: Store, e: string)
    requires forall i :: 0 <= i < |users| ==> svc.fault(i) == NoFault
    decreases |users|
    ensures var r := Reconcile(p, svc, users, store);
      e in r.store ==> (e in store || LastAdminFlag(users, e).Some?)
    ensures var r := Reconcile(p, svc, users, store);
      (e in store || LastAdminFlag(users, e).Some?) ==>
        && e in r.store
        && r.store[e].isAdmin == (if LastAdminFlag(users, e).Some? then LastAdminFlag(users, e).value else store[e].isAdmin)
  {
    if |users| > 0 {
      var n := |users| - 1;
      FinalAdminFlag(p, svc, users[..n], store, e);
      var before := Reconcile(p, svc, users[..n], store);
      var step := ProcessUser(p, svc, n, users[n], before.store);
      StepShape(p, svc, n, users[n], before.store);
      assert Reconcile(p, svc, users, store).store == step.store;
      var u := users[n];
      if Truthy(u.userPassword) && u.mail == e {
        assert LastAdminFlag(users, e) == Some(u.isAdmin);
        assert step.decision == Created || step.decision == Updated;
      } else {
        assert LastAdminFlag(users, e) == LastAdminFlag(users[..n], e);
        assert e in step.store <==> e in before.store;
      }
    }
  }

  /** The hash written for the last user with a password and email `e`, if
      any: the hash service's answer at that user's position. */
  function LastHash(p: SyncParams, svc: Services, users: seq<LdapUser>, e: string): Option<string> {
    if |users| == 0 then None
    else
      var n := |users| - 1;
      var u := users[n];
      if Truthy(u.userPassword) && u.mail == e then Some(svc.hash(n, u.userPassword.value, p.workFactor))
      else LastHash(p, svc, users[..n], e)
  }

  /** Without failures, each account ends with the hash of the password of
      the last user with a password and its email, or keeps its hash if there
      is none. */
  lemma {:induction false} FinalPasswordHash(p: SyncParams, svc: Services, users: seq<LdapUser>, store: Store, e: string)
    requires forall i :: 0 <= i < |users| ==> svc.fault(i) == NoFault
    decreases |users|
    ensures var r := Reconcile(p, svc, users, store);
      (e in store || LastHash(p, svc, users, e).Some?) ==>
        && e in r.store
        && r.store[e].password == (if LastHash(p, svc, users, e).Some? then LastHash(p, svc, users, e).value else store[e].password)
  {
    if |users| > 0 {
      var n := |users| - 1;
      FinalPasswordHash(p, svc, users[..n], store, e);
      var before := Reconcile(p, svc, users[..n], store);
      var step := ProcessUser(p, svc, n, users[n], before.store);
      StepShape(p, svc, n, users[n], before.store);
      assert Reconcile(p, svc, users, store).store == step.store;
      var u := users[n];
      if Truthy(u.userPassword) && u.mail == e {
        assert LastHash(p, svc, users, e) == Some(svc.hash(n, u.userPassword.value, p.workFactor));
        assert step.decision == Created || step.decision == Updated;
      } else {
        assert LastHash(p, svc, users, e) == LastHash(p, svc, users[..n], e);
        assert e in step.store <==> e in before.store;
      }
    }
  }

  /** Running the loop again over the same users, in any order, after a
      first run in which nothing threw, creates nothing and adds no account. */
  lemma SecondRunCreatesNothing(p: SyncParams, svc1: Services, svc2: Services, users: seq<LdapUser>,
                                again: seq<LdapUser>, store: Store)
    requires forall i :: 0 <= i < |users| ==> svc1.fault(i) == NoFault
    requires multiset(again) == multiset(users)
    ensures var r1 := Reconcile(p, svc1, users, store);
      var r2 := Reconcile(p, svc2, again, r1.store);
      r2.outcome.created == 0 && r2.store.Keys == r1.store.Keys
  {
    var r1 := Reconcile(p, svc1, users, store);
    AccountsMatchDecisions(p, svc1, users, store);
    DecisionsFollowUsers(p, svc1, users, store);
    assert forall i :: 0 <= i < |users| && Truthy(users[i].userPassword) ==> users[i].mail in r1.store;
    forall k | 0 <= k < |again| && Truthy(again[k].userPassword)
      ensures again[k].mail in r1.store
    {
      assert again[k] in multiset(users);
      var i :| 0 <= i < |users| && users[i] == again[k];
    }
    NoCreatesWhenPresent(p, svc2, again, r1.store);
  }

  /** When neither run throws, the second run over the same users in the same
      order updates every user with a password again, rewriting the hash of
      each account a user with a password names, and changes no admin flag. */
  lemma SecondRunKeepsAdminFlags(p: SyncParams, svc1: Services, svc2: Services, users: seq<LdapUser>, store: Store)
    requires forall i :: 0 <= i < |users| ==> svc1.fault(i) == NoFault
    requires forall i :: 0 <= i < |users| ==> svc2.fault(i) == NoFault
    ensures var r1 := Reconcile(p, svc1, users, store);
      var r2 := Reconcile(p, svc2, users, r1.store);
      && r2.outcome.updated == |users| - NoPasswordCount(users)
      && r2.store.Keys == r1.store.Keys
      && (forall e :: e in r1.store ==> r2.store[e].isAdmin == r1.store[e].isAdmin)
      && forall e :: e in r1.store ==>
           r2.store[e].password == (if LastHash(p, svc2, users, e).Some? then LastHash(p, svc2, users, e).value
                                    else r1.store[e].password)
  {
    var r1 := Reconcile(p, svc1, users, store);
    var r2 := Reconcile(p, svc2, users, r1.store);
    SecondRunCreatesNothing(p, svc1, svc2, users, users, store);
    CountersAddUp(p, svc2, users, r1.store);
    SkippedCountsUsersWithoutPassword(p, svc2, users, r1.store);
    forall e | e in r1.store
      ensures r2.store[e].isAdmin == r1.store[e].isAdmin
    {
      FinalAdminFlag(p, svc1, users, store, e);
      FinalAdminFlag(p, svc2, users, r1.store, e);
    }
    forall e | e in r1.store
      ensures r2.store[e].password == (if LastHash(p, svc2, users, e).Some? then LastHash(p, svc2, users, e).value
                                       else r1.store[e].password)
    {
      FinalPasswordHash(p, svc2, users, r1.store, e);
    }
  }

  /** Users with a password that share an email agree on the admin flag. */
  ghost predicate AdminFlagsAgree(users: seq<LdapUser>) {
    forall i, j ::
      (0 <= i < |users| && 0 <= j < |users| &&
       Truthy(users[i].userPassword) && Truthy(users[j].userPassword) && users[i].mail == users[j].mail) ==>
      users[i].isAdmin == users[j].isAdmin
  }

  /** `LastAdminFlag` names a flag exactly when some user with a password has
      the email, and the flag it names is that of such a user. */
  lemma {:induction false} LastAdminFlagFindsUser(users: seq<LdapUser>, e: string)
    decreases |users|
    ensures LastAdminFlag(users, e).Some? <==>
      exists i :: 0 <= i < |users| && Truthy(users[i].userPassword) && users[i].mail == e
    ensures LastAdminFlag(users, e).Some? ==>
      exists i :: 0 <= i < |users| && Truthy(users[i].userPassword) && users[i].mail == e &&
        users[i].isAdmin == LastAdminFlag(users, e).value
  {
    if |users| > 0 {
      var n := |users| - 1;
      LastAdminFlagFindsUser(users[..n], e);
      if !(Truthy(users[n].userPassword) && users[n].mail == e) {
        if exists i :: 0 <= i < |users| && Truthy(users[i].userPassword) && users[i].mail == e {
          var i :| 0 <= i < |users| && Truthy(users[i].userPassword) && users[i].mail == e;
          assert users[..n][i] == users[i];
        }
        if LastAdminFlag(users, e).Some? {
          var i :| 0 <= i < n && Truthy(users[..n][i].userPassword) && users[..n][i].mail == e &&
            users[..n][i].isAdmin == LastAdminFlag(users, e).value;
          assert users[i] == users[..n][i];
        }
      }
    }
  }

  /** A reordering keeps every user, so an email some user with a password
      has in one order, some user with a password has in the other. */
  lemma PasswordEmailSurvivesReorder(users: seq<LdapUser>, again: seq<LdapUser>, e: string)
    requires multiset(again) == multiset(users)
    ensures (exists i :: 0 <= i < |users| && Truthy(users[i].userPassword) && users[i].mail == e) ==>
      exists k :: 0 <= k < |again| && Truthy(again[k].userPassword) && again[k].mail == e
  {
    if exists i :: 0 <= i < |users| && Truthy(users[i].userPassword) && users[i].mail == e {
      var i :| 0 <= i < |users| && Truthy(users[i].userPassword) && users[i].mail == e;
      assert users[i] in multiset(again);
      var k :| 0 <= k < |again| && again[k] == users[i];
    }
  }

  /** When users with a password that share an email agree on the admin flag,
      the flag an email ends with does not depend on the order of the users. */
  lemma LastAdminFlagIgnoresOrder(users: seq<LdapUser>, again: seq<LdapUser>, e: string)
    requires multiset(again) == multiset(users)
    requires AdminFlagsAgree(users)
    ensures LastAdminFlag(again, e) == LastAdminFlag(users, e)
  {
    LastAdminFlagFindsUser(users, e);
    LastAdminFlagFindsUser(again, e);
    PasswordEmailSurvivesReorder(users, again, e);
    PasswordEmailSurvivesReorder(again, users, e);
    if LastAdminFlag(again, e).Some? {
      var k :| 0 <= k < |again| && Truthy(again[k].userPassword) && again[k].mail == e &&
        again[k].isAdmin == LastAdminFlag(again, e).value;
      assert again[k] in multiset(users);
      var i :| 0 <= i < |users| && users[i] == again[k];
      var j :| 0 <= j < |users| && Truthy(users[j].userPassword) && users[j].mail == e &&
        users[j].isAdmin == LastAdminFlag(users, e).value;
    }
  }

  /** When neither run throws and users with a password that share an email
      agree on the admin flag, a second run over the same users in any order
      updates every user with a password again, rewriting the hash of each
      account a user with a password names, and changes no admin flag. */
  lemma SecondRunInAnyOrderKeepsAdminFlags(p: SyncParams, svc1: Services, svc2: Services, users: seq<LdapUser>,
                                           again: seq<LdapUser>, store: Store)
    requires forall i :: 0 <= i < |users| ==> svc1.fault(i) == NoFault
    requires forall i :: 0 <= i < |again| ==> svc2.fault(i) == NoFault
    requires multiset(again) == multiset(users)
    requires AdminFlagsAgree(users)
    ensures var r1 := Reconcile(p, svc1, users, store);
      var r2 := Reconcile(p, svc2, again, r1.store);
      && r2.outcome.updated == |users| - NoPasswordCount(users)
      && r2.store.Keys == r1.store.Keys
      && (forall e :: e in r1.store ==> r2.store[e].isAdmin == r1.store[e].isAdmin)
      && forall e :: e in r1.store ==>
           r2.store[e].password == (if LastHash(p, svc2, again, e).Some? then LastHash(p, svc2, again, e).value
                                    else r1.store[e].password)
  {
    var r1 := Reconcile(p, svc1, users, store);
    var r2 := Reconcile(p, svc2, again, r1.store);
    SecondRunCreatesNothing(p, svc1, svc2, users, again, store);
    CountersAddUp(p, svc2, again, r1.store);
    SkippedCountsUsersWithoutPassword(p, svc2, again, r1.store);
    SkippedIgnoresOrder(again, users);
    assert |again| == |multiset(again)| == |users|;
    forall e | e in r1.store
      ensures r2.store[e].isAdmin == r1.store[e].isAdmin
    {
      FinalAdminFlag(p, svc1, users, store, e);
      FinalAdminFlag(p, svc2, again, r1.store, e);
      LastAdminFlagIgnoresOrder(users, again, e);
    }
    forall e | e in r1.store
      ensures r2.store[e].password == (if LastHash(p, svc2, again, e).Some? then LastHash(p, svc2, again, e).value
                                       else r1.store[e].password)
    {
      FinalPasswordHash(p, svc2, again, r1.store, e);
    }
  }

  /** Without that agreement the order matters: two users with a password
      share an email but not the admin flag, and reconciling them in the
      other order on the second run flips the account's flag. */
  lemma SettleOrderCanFlipAdminFlag(p: SyncParams, svc: Services)
    requires forall i :: svc.fault(i) == NoFault
    ensures var a := LdapUser("a", ["n"], Some("pw"), true);
      var b := LdapUser("a", ["n"], Some("pw"), false);
      var r1 := Reconcile(p, svc, [a, b], map[]);
      var r2 := Reconcile(p, svc, [b, a], r1.store);
      && "a" in r1.store && !r1.store["a"].isAdmin
      && "a" in r2.store && r2.store["a"].isAdmin
  {
    var a := LdapUser("a", ["n"], Some("pw"), true);
    var b := LdapUser("a", ["n"], Some("pw"), false);
    var r1 := Reconcile(p, svc, [a, b], map[]);
    assert [a, b][..1] == [a];
    assert [b, a][..1] == [b];
    assert LastAdminFlag([a, b], "a") == Some(false);
    assert LastAdminFlag([b, a], "a") == Some(true);
    FinalAdminFlag(p, svc, [a, b], map[], "a");
    FinalAdminFlag(p, svc, [b, a], r1.store, "a");
  }

  /** When every user with a password already has an account, the loop
      creates nothing and adds no account. */
  lemma {:induction false} NoCreatesWhenPresent(p: SyncParams, svc: Services, users: seq<LdapUser>, store: Store)
    requires forall i :: 0 <= i < |users| && Truthy(users[i].userPassword) ==> users[i].mail in store
    decreases |users|
    ensures Reconcile(p, svc, users, store).outcome.created == 0
    ensures Reconcile(p, svc, users, store).store.Keys == store.Keys
  {
    if |users| > 0 {
      var n := |users| - 1;
      assert forall i :: 0 <= i < n ==> users[..n][i] == users[i];
      NoCreatesWhenPresent(p, svc, users[..n], store);
      var before := Reconcile(p, svc, users[..n], store);
      StepShape(p, svc, n, users[n], before.store);
    }
  }

  /** Two accounts that agree on every field except the password hash and
      the storage label. */
  predicate SameApartFromHashAndLabel(a1: Account, a2: Account) {
    && a1.id == a2.id && a1.email == a2.email && a1.name == a2.name
    && a1.isAdmin == a2.isAdmin && a1.shouldChangePassword == a2.shouldChangePassword
  }

  /** Two stores with the same emails whose accounts differ at most in their
      password hash and storage label. */
  ghost predicate SameAccountsApartFromHashAndLabel(s1: Store, s2: Store) {
    s1.Keys == s2.Keys && forall e :: e in s1 ==> SameApartFromHashAndLabel(s1[e], s2[e])
  }

  /** Handling one user under either controller's parameters makes the same
      decision and keeps the stores alike. */
  lemma StepAgrees(p1: SyncParams, p2: SyncParams, svc: Services, i: nat, u: LdapUser, s1: Store, s2: Store)
    requires SameAccountsApartFromHashAndLabel(s1, s2)
    ensures ProcessUser(p1, svc, i, u, s1).decision == ProcessUser(p2, svc, i, u, s2).decision
    ensures SameAccountsApartFromHashAndLabel(ProcessUser(p1, svc, i, u, s1).store, ProcessUser(p2, svc, i, u, s2).store)
  {
    StepShape(p1, svc, i, u, s1);
    StepShape(p2, svc, i, u, s2);
  }

  /** The two controllers differ only in the hash and the storage label they
      write: for the same users, store and collaborators, they reach the same
      decisions and counters and file the same emails, with accounts that
      agree on id, name, admin flag and `shouldChangePassword`. */
  lemma {:induction false} ControllersAgree(p1: SyncParams, p2: SyncParams, svc: Services, users: seq<LdapUser>, store: Store)
    decreases |users|
    ensures var r1 := Reconcile(p1, svc, users, store);
      var r2 := Reconcile(p2, svc, users, store);
      && r1.decisions == r2.decisions && r1.outcome == r2.outcome
      && SameAccountsApartFromHashAndLabel(r1.store, r2.store)
  {
    if |users| > 0 {
      var n := |users| - 1;
      ControllersAgree(p1, p2, svc, users[..n], store);
      var b1 := Reconcile(p1, svc, users[..n], store);
      var b2 := Reconcile(p2, svc, users[..n], store);
      StepAgrees(p1, p2, svc, n, users[n], b1.store, b2.store);
    }
  }

  lemma {:induction false} NoPasswordCountConcat(a: seq<LdapUser>, b: seq<LdapUser>)
    decreases |b|
    ensures NoPasswordCount(a + b) == NoPasswordCount(a) + NoPasswordCount(b)
  {
    if |b| > 0 {
      var n := |b| - 1;
      assert (a + b)[..|a + b| - 1] == a + b[..n];
      assert (a + b)[|a + b| - 1] == b[n];
      assert NoPasswordCount(a + b) == NoPasswordCount(a + b[..n]) + (if Truthy(b[n].userPassword) then 0 else 1);
      NoPasswordCountConcat(a, b[..n]);
    } else {
      assert a + b == a;
    }
  }

  /** The number of skipped users depends only on which users there are, not
      on the order in which their membership checks settled. */
  lemma {:induction false} SkippedIgnoresOrder(a: seq<LdapUser>, b: seq<LdapUser>)
    requires multiset(a) == multiset(b)
    decreases |a|
    ensures NoPasswordCount(a) == NoPasswordCount(b)
  {
    if |a| > 0 {
      var n := |a| - 1;
      var x := a[n];
      assert a == a[..n] + [x];
      assert x in multiset(b);
      var j :| 0 <= j < |b| && b[j] == x;
      var rest := b[..j] + b[j + 1..];
      assert b == b[..j] + [x] + b[j + 1..];
      assert multiset(a) == multiset(a[..n]) + multiset{x};
      assert multiset(b) == multiset(b[..j]) + multiset{x} + multiset(b[j + 1..]);
      assert multiset(rest) == multiset(b[..j]) + multiset(b[j + 1..]);
      assert multiset(a[..n]) == multiset(a) - multiset{x};
      assert multiset(rest) == multiset(b) - multiset{x};
      SkippedIgnoresOrder(a[..n], rest);
      NoPasswordCountConcat(a[..n], [x]);
      NoPasswordCountConcat(b[..j] + [x], b[j + 1..]);
      NoPasswordCountConcat(b[..j], [x]);
      NoPasswordCountConcat(b[..j], b[j + 1..]);
    }
  }

  /** Every password is hashed with the work factor of the controller. */
  lemma {:induction false} HashCallsUseWorkFactor(p: SyncParams, svc: Services, users: seq<LdapUser>, store: Store)
    decreases |users|
    ensures forall k :: 0 <= k < |Reconcile(p, svc, users, store).effects| ==>
      var effect := Reconcile(p, svc, users, store).effects[k];
      effect.HashCall? ==> effect.rounds == p.workFactor
  {
    if |users| > 0 {
      var n := |users| - 1;
      HashCallsUseWorkFactor(p, svc, users[..n], store);
      var before := Reconcile(p, svc, users[..n], store);
      var step := ProcessUser(p, svc, n, users[n], before.store);
      StepHashes(p, svc, n, users[n], before.store);
      var effects := Reconcile(p, svc, users, store).effects;
      assert effects == before.effects + step.effects;
      forall k | 0 <= k < |effects| && effects[k].HashCall?
        ensures effects[k].rounds == p.workFactor
      {
        if k < |before.effects| {
          assert effects[k] == before.effects[k];
        } else {
          assert effects[k] == step.effects[k - |before.effects|];
        }
      }
    }
  }

  /** The kinds of call the loop makes: a hash, a lookup by email, or a
      repository write (`update` or `create`). */
  datatype CallKind = HashKind | LookupKind | WriteKind

  function KindOf(e: Effect): CallKind {
    match e
    case HashCall(_, _) => HashKind
    case LookupCall(_) => LookupKind
    case UpdateCall(_, _) => WriteKind
    case CreateCall(_) => WriteKind
  }

  /** How many calls of kind `k` the log holds. */
  function CallCount(es: seq<Effect>, k: CallKind): nat {
    if |es| == 0 then 0
    else CallCount(es[..|es| - 1], k) + (if KindOf(es[|es| - 1]) == k then 1 else 0)
  }

  lemma {:induction false} CallCountConcat(a: seq<Effect>, b: seq<Effect>, k: CallKind)
    decreases |b|
    ensures CallCount(a + b, k) == CallCount(a, k) + CallCount(b, k)
  {
    if |b| > 0 {
      var n := |b| - 1;
      assert (a + b)[..|a + b| - 1] == a + b[..n];
      assert (a + b)[|a + b| - 1] == b[n];
      CallCountConcat(a, b[..n], k);
    } else {
      assert a + b == a;
    }
  }

  /** Handling one user hashes once if it has a password, looks it up unless
      hashing threw, and writes unless hashing or the lookup threw. */
  lemma StepCallCounts(p: SyncParams, svc: Services, i: nat, u: LdapUser, store: Store)
    ensures var es := ProcessUser(p, svc, i, u, store).effects;
      && CallCount(es, HashKind) == (if Truthy(u.userPassword) then 1 else 0)
      && CallCount(es, LookupKind) == (if Truthy(u.userPassword) && svc.fault(i) != HashThrows then 1 else 0)
      && CallCount(es, WriteKind) ==
           (if Truthy(u.userPassword) && svc.fault(i) != HashThrows && svc.fault(i) != LookupThrows then 1 else 0)
  {
    var es := ProcessUser(p, svc, i, u, store).effects;
    if Truthy(u.userPassword) {
      var h, l := HashCall(u.userPassword.value, p.workFactor), LookupCall(u.mail);
      CallCountOne(h);
      if svc.fault(i) == LookupThrows {
        assert es == [h] + [l];
        CallCountOne(l);
        forall k ensures CallCount([h] + [l], k) == CallCount([h], k) + CallCount([l], k) {
          CallCountConcat([h], [l], k);
        }
      } else if svc.fault(i) != HashThrows {
        var w := es[2];
        assert es == [h] + [l] + [w];
        CallCountOne(l);
        CallCountOne(w);
        forall k ensures CallCount([h] + [l] + [w], k) == CallCount([h], k) + CallCount([l], k) + CallCount([w], k) {
          CallCountConcat([h], [l], k);
          CallCountConcat([h] + [l], [w], k);
        }
      }
    }
  }

  lemma CallCountOne(e: Effect)
    ensures forall k :: CallCount([e], k) == (if KindOf(e) == k then 1 else 0)
  {
    assert [e][..0] == [];
  }

  /** Over a run, every user with a password is hashed exactly once,
      whatever throws. */
  lemma {:induction false} RunHashCount(p: SyncParams, svc: Services, users: seq<LdapUser>, store: Store)
    decreases |users|
    ensures CallCount(Reconcile(p, svc, users, store).effects, HashKind) == |users| - NoPasswordCount(users)
  {
    if |users| > 0 {
      var n := |users| - 1;
      RunHashCount(p, svc, users[..n], store);
      var before := Reconcile(p, svc, users[..n], store);
      var step := ProcessUser(p, svc, n, users[n], before.store);
      StepCallCounts(p, svc, n, users[n], before.store);
      CallCountConcat(before.effects, step.effects, HashKind);
    }
  }

  /** Over a run there is a repository write for every created or updated
      user, and when nothing throws, exactly one per such user and no other. */
  lemma {:induction false} RunCallCounts(p: SyncParams, svc: Services, users: seq<LdapUser>, store: Store)
    decreases |users|
    ensures var r := Reconcile(p, svc, users, store);
      r.outcome.created + r.outcome.updated <= CallCount(r.effects, WriteKind)
    ensures var r := Reconcile(p, svc, users, store);
      (forall i :: 0 <= i < |users| ==> svc.fault(i) == NoFault) ==>
        CallCount(r.effects, WriteKind) == r.outcome.created + r.outcome.updated
    ensures CallCount(Reconcile(p, svc, users, store).effects, HashKind) == |users| - NoPasswordCount(users)
  {
    RunHashCount(p, svc, users, store);
    if |users| > 0 {
      var n := |users| - 1;
      RunCallCounts(p, svc, users[..n], store);
      var before := Reconcile(p, svc, users[..n], store);
      var step := ProcessUser(p, svc, n, users[n], before.store);
      StepCallCounts(p, svc, n, users[n], before.store);
      CallCountConcat(before.effects, step.effects, WriteKind);
    }
  }
}

=== FILE: ryvie.dfy ===
/**
  The Ryvie tunnel configuration service: reading the JSON configuration
  into the tunnel-info response, choosing the public URL by priority, and
  merging new values into the configuration. The file is an abstract
  `ConfigFile`; the JSON object is a record whose fields may be absent.
 */
module Ryvie {
  import opened Wrappers
  import opened Js

  /** The `domains` object. */
  datatype Domains = Domains(app: Option<string>, api: Option<string>)

  /** The `netbird` object; `others` holds the keys the service never reads. */
  datatype Netbird = Netbird(ip: Option<string>, setupKey: Option<string>, others: map<string, string>)

  /** The configuration object. A key that is missing (or JSON `null`, for the
      nested objects) is `None`; `others` holds the remaining keys, with their
      JSON text, which the service passes through untouched. */
  datatype RyvieConfig = RyvieConfig(
    ryvieId: Option<string>,
    tunnelHost: Option<string>,
    publicUrl: Option<string>,
    domains: Option<Domains>,
    netbird: Option<Netbird>,
    others: map<string, string>
  )

  /** The `{}` a fresh configuration starts from. */
  const EmptyConfig: RyvieConfig := RyvieConfig(None, None, None, None, None, map[])

  /** The configuration file: missing, failing to read or parse, holding the
      JSON value `null`, or holding an object. */
  datatype ConfigFile = Absent | Unreadable | HoldsNull | Holds(config: RyvieConfig)

  /** The tunnel-info response; an undefined field is `None`. */
  datatype TunnelInfo = TunnelInfo(
    success: bool,
    ryvieId: Option<string>,
    tunnelHost: Option<string>,
    publicUrl: Option<string>,
    domains: Option<Domains>,  // the same shape as the configuration's `domains`
    setupKey: Option<string>
  )

  /** `config.domains?.app`, `config.domains?.api`, `config.netbird?.ip`, `config.netbird?.setupKey`. */
  function DomainApp(c: RyvieConfig): Option<string> { if c.domains.Some? then c.domains.value.app else None }
  function DomainApi(c: RyvieConfig): Option<string> { if c.domains.Some? then c.domains.value.api else None }
  function NetbirdIp(c: RyvieConfig): Option<string> { if c.netbird.Some? then c.netbird.value.ip else None }
  function NetbirdSetupKey(c: RyvieConfig): Option<string> { if c.netbird.Some? then c.netbird.value.setupKey else None }

  /** `buildPublicUrl`: the explicit public URL, else HTTPS on the app
      domain, else HTTP port 3000 on the tunnel host, else HTTP port 3000 on
      the NetBird IP; a source that is missing or empty is passed over. */
  function BuildPublicUrl(c: RyvieConfig): (r: Option<string>)
    ensures r.Some? ==> r.value != ""
    ensures r.None? <==> !Truthy(c.publicUrl) && !Truthy(DomainApp(c)) && !Truthy(c.tunnelHost) && !Truthy(NetbirdIp(c))
    ensures Truthy(c.publicUrl) ==> r == c.publicUrl
    ensures !Truthy(c.publicUrl) && Truthy(DomainApp(c)) ==> r == Some("https://" + DomainApp(c).value)
    ensures !Truthy(c.publicUrl) && !Truthy(DomainApp(c)) && Truthy(c.tunnelHost) ==>
      r == Some("http://" + c.tunnelHost.value + ":3000")
    ensures !Truthy(c.publicUrl) && !Truthy(DomainApp(c)) && !Truthy(c.tunnelHost) && Truthy(NetbirdIp(c)) ==>
      r == Some("http://" + NetbirdIp(c).value + ":3000")
  {
    if Truthy(c.publicUrl) then c.publicUrl
    else if Truthy(DomainApp(c)) then Some("https://" + DomainApp(c).value)
    else if Truthy(c.tunnelHost) then Some("http://" + c.tunnelHost.value + ":3000")
    else if Truthy(NetbirdIp(c)) then Some("http://" + NetbirdIp(c).value + ":3000")
    else None
  }

  /** An empty string at any priority level behaves as a missing value. */
  lemma EmptyStringsCountAsAbsent(c: RyvieConfig)
    ensures BuildPublicUrl(c.(publicUrl := Some(""))) == BuildPublicUrl(c.(publicUrl := None))
    ensures BuildPublicUrl(c.(tunnelHost := Some(""))) == BuildPublicUrl(c.(tunnelHost := None))
    ensures c.domains.Some? ==>
      BuildPublicUrl(c.(domains := Some(c.domains.value.(app := Some(""))))) ==
      BuildPublicUrl(c.(domains := Some(c.domains.value.(app := None))))
    ensures c.netbird.Some? ==>
      BuildPublicUrl(c.(netbird := Some(c.netbird.value.(ip := Some(""))))) ==
      BuildPublicUrl(c.(netbird := Some(c.netbird.value.(ip := None))))
  {
  }

  /** `getDefaultResponse`: `{ success: false }` and nothing else. */
  const DefaultResponse: TunnelInfo := TunnelInfo(false, None, None, None, None, None)

  /** `getTunnelInfo`: a missing file, a read or parse error, or a `null`
      configuration (whose fields cannot be read) gives exactly the default
      response; otherwise every field is filled from the configuration, with
      falsy values left undefined and the tunnel host falling back to the
      NetBird IP. */
  function GetTunnelInfo(file: ConfigFile): (r: TunnelInfo)
    ensures r.success <==> file.Holds?
    ensures !r.success ==> r == DefaultResponse
    ensures r.success ==> r.domains.Some?
    ensures r.success ==> r.ryvieId == OrUndefined(file.config.ryvieId)
    ensures r.success ==> r.tunnelHost == (if Truthy(file.config.tunnelHost) then file.config.tunnelHost
                                           else OrUndefined(NetbirdIp(file.config)))
    ensures r.success ==> r.publicUrl == BuildPublicUrl(file.config)
    ensures r.success ==> r.domains.value == Domains(OrUndefined(DomainApp(file.config)), OrUndefined(DomainApi(file.config)))
    ensures r.success ==> r.setupKey == OrUndefined(NetbirdSetupKey(file.config))
  {
    match file
    case Holds(c) =>
      TunnelInfo(
        true,
        OrUndefined(c.ryvieId),
        OrUndefined(Or(c.tunnelHost, NetbirdIp(c))),
        BuildPublicUrl(c),
        Some(Domains(OrUndefined(DomainApp(c)), OrUndefined(DomainApi(c)))),
        OrUndefined(NetbirdSetupKey(c)))
    case _ => DefaultResponse
  }

  /** Every field a successful response defines is a non-empty string, and a
      response naming a tunnel host always names a public URL too, since the
      URL falls back on the same two sources. */
  lemma TunnelHostImpliesPublicUrl(file: ConfigFile)
    ensures var r := GetTunnelInfo(file);
      && (r.tunnelHost.Some? ==> r.tunnelHost.value != "" && r.publicUrl.Some?)
      && (r.ryvieId.Some? ==> r.ryvieId.value != "")
      && (r.setupKey.Some? ==> r.setupKey.value != "")
      && (r.publicUrl.Some? ==> r.publicUrl.value != "")
  {
  }

  /** The optional arguments of `saveTunnelInfo`; `None` is `undefined`. */
  datatype TunnelUpdate = TunnelUpdate(
    ryvieId: Option<string>,
    tunnelHost: Option<string>,
    publicUrl: Option<string>,
    domains: Option<Domains>,
    setupKey: Option<string>
  )

  /** Writes the setup key into `netbird`, creating it when it is missing. */
  function WithSetupKey(nb: Option<Netbird>, key: string): (r: Netbird)
    ensures r.setupKey == Some(key)
    ensures nb.Some? ==> r.ip == nb.value.ip && r.others == nb.value.others
    ensures nb.None? ==> r.ip.None? && r.others == map[]
  {
    match nb
    case Some(n) => n.(setupKey := Some(key))
    case None => Netbird(None, Some(key), map[])
  }

  /** The field updates of `saveTunnelInfo`: a key is overwritten exactly
      when its argument is defined (an empty string included), `domains` is
      replaced as a whole, the setup key goes into `netbird`, and every other
      key keeps its value. */
  function Merge(c: RyvieConfig, u: TunnelUpdate): (m: RyvieConfig)
    ensures m.ryvieId == (if u.ryvieId.Some? then u.ryvieId else c.ryvieId)
    ensures m.tunnelHost == (if u.tunnelHost.Some? then u.tunnelHost else c.tunnelHost)
    ensures m.publicUrl == (if u.publicUrl.Some? then u.publicUrl else c.publicUrl)
    ensures m.domains == (if u.domains.Some? then u.domains else c.domains)
    ensures u.setupKey.None? ==> m.netbird == c.netbird
    ensures u.setupKey.Some? ==> m.netbird.Some? && NetbirdSetupKey(m) == u.setupKey
    ensures u.setupKey.Some? && c.netbird.Some? ==>
      m.netbird.value.ip == c.netbird.value.ip && m.netbird.value.others == c.netbird.value.others
    ensures u.setupKey.Some? && c.netbird.None? ==> m.netbird == Some(Netbird(None, u.setupKey, map[]))
    ensures m.others == c.others
  {
    RyvieConfig(
      if u.ryvieId.Some? then u.ryvieId else c.ryvieId,
      if u.tunnelHost.Some? then u.tunnelHost else c.tunnelHost,
      if u.publicUrl.Some? then u.publicUrl else c.publicUrl,
      if u.domains.Some? then u.domains else c.domains,
      if u.setupKey.Some? then Some(WithSetupKey(c.netbird, u.setupKey.value)) else c.netbird,
      c.others)
  }

  /** Applying the same update twice changes nothing more. */
  lemma MergeIdempotent(c: RyvieConfig, u: TunnelUpdate)
    ensures Merge(Merge(c, u), u) == Merge(c, u)
  {
  }

  /** An update with nothing defined leaves the configuration as it was. */
  lemma EmptyUpdateChangesNothing(c: RyvieConfig)
    ensures Merge(c, TunnelUpdate(None, None, None, None, None)) == c
  {
  }

  /** How `saveTunnelInfo` ends: the file written, or the error rethrown. */
  datatype SaveResult = Saved(file: ConfigFile) | SaveFailed

  /** An update that assigns at least one key. */
  predicate AssignsSomething(u: TunnelUpdate) {
    u.ryvieId.Some? || u.tunnelHost.Some? || u.publicUrl.Some? || u.domains.Some? || u.setupKey.Some?
  }

  /** `saveTunnelInfo`. `ioSucceeds` says whether creating the directory and
      writing the file succeed. A missing file starts from `{}`; an unreadable
      one, or a `null` one that any key is assigned into, makes it throw. */
  function SaveTunnelInfo(file: ConfigFile, u: TunnelUpdate, ioSucceeds: bool): (r: SaveResult)
    ensures r.Saved? <==> ioSucceeds && !file.Unreadable? && !(file.HoldsNull? && AssignsSomething(u))
    ensures r.Saved? && file.Absent? ==> r.file == Holds(Merge(EmptyConfig, u))
    ensures r.Saved? && file.Holds? ==> r.file == Holds(Merge(file.config, u))
    ensures r.Saved? && file.HoldsNull? ==> r.file == HoldsNull
  {
    if !ioSucceeds then SaveFailed
    else
      match file
      case Unreadable => SaveFailed
      case HoldsNull => if AssignsSomething(u) then SaveFailed else Saved(HoldsNull)
      case Absent => Saved(Holds(Merge(EmptyConfig, u)))
      case Holds(c) => Saved(Holds(Merge(c, u)))
  }

  /** Saving a non-empty public URL and reading the tunnel info back reports
      exactly that URL, whatever else the configuration holds; likewise a
      saved non-empty id and setup key are reported as saved. */
  lemma SavedValuesAreReported(file: ConfigFile, u: TunnelUpdate)
    requires SaveTunnelInfo(file, u, true).Saved?
    requires file.Absent? || file.Holds?
    ensures var info := GetTunnelInfo(SaveTunnelInfo(file, u, true).file);
      && info.success
      && (Truthy(u.publicUrl) ==> info.publicUrl == u.publicUrl)
      && (Truthy(u.ryvieId) ==> info.ryvieId == u.ryvieId)
      && (Truthy(u.setupKey) ==> info.setupKey == u.setupKey)
      && (Truthy(u.tunnelHost) ==> info.tunnelHost == u.tunnelHost)
  {
  }

  /** Merging a non-empty public URL into any configuration makes it the
      public URL `buildPublicUrl` chooses. */
  lemma MergedPublicUrlWins(c: RyvieConfig, u: TunnelUpdate)
    requires Truthy(u.publicUrl)
    ensures BuildPublicUrl(Merge(c, u)) == u.publicUrl
  {
  }
}

=== FILE: sync_run.dfy ===
/**
  One end-to-end sync run, as both controllers perform it: get (or create)
  the directory client, bind, enumerate the users, then reconcile them one
  by one. A bind or enumeration failure propagates with no counters; once
  the users are enumerated the run always completes.
 */
module SyncRun {
  import opened Wrappers
  import opened LdapSettings
  import opened LdapClient
  import opened Membership
  import opened Extraction
  import opened Enumeration
  import opened Reconciliation

  /** How the directory answers during one run: whether the bind succeeds,
      the user search, and the answer to each membership filter. */
  datatype Directory = Directory(bindSucceeds: bool, userSearch: UserSearch, answers: string -> MembershipQuery)

  /** The error a failed run rethrows. */
  datatype RunError = BindFailed | EnumerationError(error: EnumError)

  /** How the run's promise settles. */
  datatype RunResult =
    | Completed(outcome: Outcome, store: Store, effects: seq<Effect>)
    | RunFailed(error: RunError)
    | RunPending

  /** The run's result, and the controller's client field afterwards. */
  datatype Run = Run(result: RunResult, slot: ClientSlot)

  /** `syncLdapUsersInternal` / `syncLdap`. */
  function SyncLdapUsers(p: SyncParams, env: LdapEnv, slot: ClientSlot, dir: Directory, schedule: seq<nat>,
                         svc: Services, store: Store): (r: Run)
    // the client is created by the first run and reused afterwards
    ensures r.slot.Holds?
    ensures slot.Holds? ==> r.slot == slot
    ensures slot.Empty? ==> r.slot.client.url == Resolve(env).url
    // a bind failure is rethrown, with no counters
    ensures r.result == RunFailed(BindFailed) <==> !dir.bindSucceeds
    // so is a failed user search or a stream error
    ensures dir.bindSucceeds && dir.userSearch.UserSearchRejected? ==>
      r.result == RunFailed(EnumerationError(SearchCallFailed))
    ensures dir.bindSucceeds && dir.userSearch.UserStream? && CutAtTerminal(dir.userSearch.events).terminal == ErrorSeen ==>
      r.result == RunFailed(EnumerationError(SearchStreamFailed))
    // the run completes exactly when the bind succeeds, the stream ends and
    // every membership check resolves
    ensures r.result.Completed? <==>
      && dir.bindSucceeds && dir.userSearch.UserStream?
      && CutAtTerminal(dir.userSearch.events).terminal == EndSeen
      && AllFulfilled(Resolve(env), dir.answers, Candidates(Resolve(env), CutAtTerminal(dir.userSearch.events).entries))
    // after a successful bind the run settles as the enumeration does, and a
    // completed run returns the counters, store and calls of the loop over
    // the enumerated users
    ensures dir.bindSucceeds ==>
      var e := GetAllLdapUsers(Resolve(env), dir.userSearch, dir.answers, schedule);
      && (e.Enumerated? ==>
            var loop := Reconcile(p, svc, e.users, store);
            r.result == Completed(loop.outcome, loop.store, loop.effects))
      && (e.EnumerationFailed? ==> r.result == RunFailed(EnumerationError(e.error)))
      && (e.EnumerationPending? ==> r.result == RunPending)
    // counters are returned only after the stream ended, and count at most
    // one decision per valid entry seen before the end
    ensures r.result.Completed? ==>
      && dir.bindSucceeds && dir.userSearch.UserStream?
      && CutAtTerminal(dir.userSearch.events).terminal == EndSeen
      && var o := r.result.outcome;
         o.created + o.updated + o.skipped <= |Candidates(Resolve(env), CutAtTerminal(dir.userSearch.events).entries)|
    // without per-user failures every valid entry is counted once
    ensures r.result.Completed? && (forall i :: svc.fault(i) == NoFault) ==>
      var o := r.result.outcome;
      o.created + o.updated + o.skipped == |Candidates(Resolve(env), CutAtTerminal(dir.userSearch.events).entries)|
    // every password is hashed with the controller's work factor
    ensures r.result.Completed? ==>
      forall k :: 0 <= k < |r.result.effects| && r.result.effects[k].HashCall? ==> r.result.effects[k].rounds == p.workFactor
  {
    var s := Resolve(env);
    var acquired := GetClient(slot, s.url);
    if !dir.bindSucceeds then Run(RunFailed(BindFailed), acquired.slot)
    else
      match GetAllLdapUsers(s, dir.userSearch, dir.answers, schedule)
      case EnumerationFailed(e) => Run(RunFailed(EnumerationError(e)), acquired.slot)
      case EnumerationPending => Run(RunPending, acquired.slot)
      case Enumerated(users) =>
        var progress := Reconcile(p, svc, users, store);
        CountersAddUp(p, svc, users, store);
        HashCallsUseWorkFactor(p, svc, users, store);
        Run(Completed(progress.outcome, progress.store, progress.effects), acquired.slot)
  }

  /** The user-admin controller: bcrypt cost `SALT_ROUNDS`, labels from
      Node's `randomUUID`. */
  function UserAdminParams(saltRounds: nat, nodeRandomUuid: nat -> string): (p: SyncParams)
    ensures p.workFactor == saltRounds
  {
    SyncParams(saltRounds, nodeRandomUuid)
  }

  /** The LDAP-sync controller: bcrypt cost 10, labels from the crypto
      repository's `randomUUID`. */
  function LdapSyncParams(repositoryRandomUuid: nat -> string): (p: SyncParams)
    ensures p.workFactor == 10
  {
    SyncParams(10, repositoryRandomUuid)
  }

  /** The enumerated users of a run, whichever schedule their checks settle in. */
  lemma EnumeratedUsersArePermutations(s: Settings, search: UserSearch, answers: string -> MembershipQuery,
                                       sch1: seq<nat>, sch2: seq<nat>)
    requires GetAllLdapUsers(s, search, answers, sch1).Enumerated?
    ensures GetAllLdapUsers(s, search, answers, sch2).Enumerated?
    ensures multiset(GetAllLdapUsers(s, search, answers, sch1).users) ==
            multiset(GetAllLdapUsers(s, search, answers, sch2).users)
  {
  }

  /** However the membership checks settle, a completed run skips the same
      number of users: the order of reconciliation does not change it. */
  lemma SkippedIndependentOfSettleOrder(p: SyncParams, env: LdapEnv, slot: ClientSlot, dir: Directory,
                                        sch1: seq<nat>, sch2: seq<nat>, svc1: Services, svc2: Services,
                                        store1: Store, store2: Store)
    requires SyncLdapUsers(p, env, slot, dir, sch1, svc1, store1).result.Completed?
    ensures SyncLdapUsers(p, env, slot, dir, sch2, svc2, store2).result.Completed?
    ensures SyncLdapUsers(p, env, slot, dir, sch1, svc1, store1).result.outcome.skipped ==
            SyncLdapUsers(p, env, slot, dir, sch2, svc2, store2).result.outcome.skipped
  {
    var s := Resolve(env);
    EnumeratedUsersArePermutations(s, dir.userSearch, dir.answers, sch1, sch2);
    var u1 := GetAllLdapUsers(s, dir.userSearch, dir.answers, sch1).users;
    var u2 := GetAllLdapUsers(s, dir.userSearch, dir.answers, sch2).users;
    SkippedCountsUsersWithoutPassword(p, svc1, u1, store1);
    SkippedCountsUsersWithoutPassword(p, svc2, u2, store2);
    SkippedIgnoresOrder(u1, u2);
  }

  /** Running the sync again on the same controller against unchanged
      directory data, after a run in which no user failed, reuses the client,
      completes, and creates no account. */
  lemma RerunCreatesNothing(p: SyncParams, env: LdapEnv, slot: ClientSlot, dir: Directory,
                            sch1: seq<nat>, sch2: seq<nat>, svc1: Services, svc2: Services, store: Store)
    requires SyncLdapUsers(p, env, slot, dir, sch1, svc1, store).result.Completed?
    requires forall i :: svc1.fault(i) == NoFault
    ensures var first := SyncLdapUsers(p, env, slot, dir, sch1, svc1, store);
      var second := SyncLdapUsers(p, env, first.slot, dir, sch2, svc2, first.result.store);
      && second.slot == first.slot
      && second.result.Completed?
      && second.result.outcome.created == 0
      && second.result.store.Keys == first.result.store.Keys
  {
    var s := Resolve(env);
    EnumeratedUsersArePermutations(s, dir.userSearch, dir.answers, sch1, sch2);
    var u1 := GetAllLdapUsers(s, dir.userSearch, dir.answers, sch1).users;
    var u2 := GetAllLdapUsers(s, dir.userSearch, dir.answers, sch2).users;
    SecondRunCreatesNothing(p, svc1, svc2, u1, u2, store);
  }

  /** The two controllers, run on the same directory, store and collaborators,
      settle the same way and reach the same counters, emails and admin flags;
      they differ only in the hashes and storage labels they write. */
  lemma ControllersReachSameOutcome(saltRounds: nat, nodeRandomUuid: nat -> string, repositoryRandomUuid: nat -> string,
                                    env: LdapEnv, slot: ClientSlot, dir: Directory, schedule: seq<nat>,
                                    svc: Services, store: Store)
    ensures var a := SyncLdapUsers(UserAdminParams(saltRounds, nodeRandomUuid), env, slot, dir, schedule, svc, store);
      var b := SyncLdapUsers(LdapSyncParams(repositoryRandomUuid), env, slot, dir, schedule, svc, store);
      && a.slot == b.slot
      && a.result.Completed? == b.result.Completed?
      && (!a.result.Completed? ==> a.result == b.result)
      && (a.result.Completed? ==>
            && a.result.outcome == b.result.outcome
            && SameAccountsApartFromHashAndLabel(a.result.store, b.result.store))
  {
    var s := Resolve(env);
    var e := GetAllLdapUsers(s, dir.userSearch, dir.answers, schedule);
    if dir.bindSucceeds && e.Enumerated? {
      ControllersAgree(UserAdminParams(saltRounds, nodeRandomUuid), LdapSyncParams(repositoryRandomUuid), svc, e.users, store);
    }
  }
}

=== FILE: wrappers.dfy ===
/** Optional values, standing for a JavaScript value that may be `undefined`. */
module Wrappers {

  datatype Option<+T> = None | Some(value: T) {

    /** The wrapped value, or `default` when there is none. */
    function GetOr(default: T): T {
      match this
      case Some(v) => v
      case None => default
    }
  }
}
